=== FILE: README.md ===
# NFT marketplace core in Dafny

This project models the behaviour of a small NFT marketplace built with
Next.js (client and API routes) and Express with MongoDB (server). Its core
is the wallet session and the user records keyed by wallet address:

- the wallet session held by the `WalletProvider` context (connect,
  disconnect, the page-load check and account changes), and the separate
  `WalletConnect` button with its in-flight guard;
- transaction sending and receipt polling against the injected provider,
  including the hex quantities of the request;
- the Express user store: the `POST /connect-wallet` upsert, keyed by the
  lower-cased address, and the `POST /register` insert, which keeps the
  address as given;
- the Next.js stub `POST /api/auth/connect-wallet`;
- the NFT collection: the client context (`addNFT`, `getUserNFTs`), the
  in-memory `GET /api/nft/user` store and `POST /api/nft/create`;
- avatars: `POST /api/profile/upload-avatar` and the `AvatarUpload`
  picker;
- the create and profile pages' handlers, the `NFT` and `User` model
  constructors, and the `FileCard` type lookups.

Every handler is a pure function, or a method, from the state before it to
the state after it, together with what it showed (toasts) and what it sent. Whatever the
outside world answers is a parameter: the provider's replies, the backend's
replies, database and file-system failures, the clock and generated ids.
JavaScript behaviour that matters is written out:

- truthiness of strings and of JSON body fields;
- `a || b` on strings;
- ASCII `toLowerCase`;
- `slice(0, 6)` and `slice(-4)`;
- `split('.').pop()`;
- `Number.prototype.toString(radix)`, together with its inverse.

Modules:

- `Js`: values, errors, body fields, files, toasts.
- `Text`: lower-casing, slicing, the last dotted segment, digit strings.
- `Seqs`: an order-preserving filter.
- `Provider`: the provider's error codes and account replies.
- `WalletContext`, `WalletConnect`, `Ethereum`, `UserStore`,
  `ConnectWalletRoute`, `NftContext`, `NftUserRoute`, `NftCreateRoute`,
  `UploadAvatarRoute`, `AvatarUpload`, `CreatePage`, `ProfilePage`,
  `NftModel`, `UserModel`, `FileCard`: one per component of the system.

Behaviour of the code that a reader might not expect, and that the model
keeps:

- A record created by the Express upsert gets no `createdAt` or `lastLogin`.
  The server's schema (server/models/User.js:3-15) declares neither field
  and gives neither a default, so neither is set to the current time.
- `WalletProvider.connectWallet` has no re-entrancy guard. Only the
  `WalletConnect` button has one.
- A failed connection leaves any previous address in place rather than
  clearing it.
- An account change does not compare the new first account with the current
  one.
- There is no purchase orchestrator, self-purchase check or stale-response
  guard in the code, so none is modelled.

## Model

| member | source | states |
|---|---|---|
| WalletContext.ConnectError | client/src/contexts/WalletContext.tsx:80-92 | A thrown error's message is chosen by its code: 4001 gives the access-denied text, -32002 the already-processing text, -32603 the internal-error text. Any other code shows the error's own message if it has one, and the generic text otherwise. The result is never empty. |
| WalletContext.Attach | client/src/contexts/WalletContext.tsx:27-34 | Attaching an account connects to it and clears the error. A failed registration afterwards records only the registration error and keeps the connection. |
| WalletContext.ConnectWallet | client/src/contexts/WalletContext.tsx:36-94 | The address is registered with the backend exactly when MetaMask is present and returned at least one account, and the session then holds the first account. Each failure path (no provider, not MetaMask, no accounts, thrown error) sets its own message and keeps the address and connected flag. The "connected iff address" invariant is kept. |
| WalletContext.DisconnectWallet | client/src/contexts/WalletContext.tsx:96-100 | Disconnecting returns to the initial state and posts nothing. |
| WalletContext.CheckConnection | client/src/contexts/WalletContext.tsx:103-130 | The page-load check attaches the first existing account just as a successful connect does. It leaves the state alone when there are none, reports a missing provider, and reports a thrown error with the check-failed message. |
| WalletContext.AccountsChanged | client/src/contexts/WalletContext.tsx:134-146 | A missing or empty account list is a disconnect. A non-empty one attaches its first account, just as a connect that received that list does. |
| WalletContext.RunKeepsConsistent | client/src/contexts/WalletContext.tsx:22-146 | Over any sequence of connect, disconnect, check and account-change events, `isConnected` stays true exactly when an address is set. |
| WalletContext.SessionAlwaysConsistent | client/src/contexts/WalletContext.tsx:23-25 | Starting from the initial state (no address, not connected, no error), every reachable session is consistent. |
| WalletContext.RegistrationFailureKeepsConnection | client/src/contexts/WalletContext.tsx:27-34 | A failed registration leaves the wallet connected to the first account, with the registration error recorded. |
| WalletContext.ConnectThenRegister | client/src/contexts/WalletContext.tsx:27-34 | Composed with the server's `POST /register`, a connection ends without an error exactly when the address is non-empty, not yet stored and the save succeeds. Reconnecting an address the collection already holds always records the registration error. |
| WalletConnect.Classify | client/src/components/WalletConnect.tsx:67-98 | A failed attempt always shows an error toast. Errors with a truthy code 4001, -32002 or -32603 get the whole Rejected, Pending or Error toast, description included. Other coded errors show their message or the default. Errors without a code show their message only when they are `Error`s. |
| WalletConnect.BeginConnect | client/src/components/WalletConnect.tsx:22-33 | An attempt starts, and raises `isConnecting`, exactly when a provider exists and no attempt is in flight. A missing provider shows the not-found toast. A call during an attempt changes nothing and shows nothing. |
| WalletConnect.SettleConnect | client/src/components/WalletConnect.tsx:32-101 | A started attempt always lowers `isConnecting`. The first account is posted exactly when the provider returned one. The user changes only when the backend answered ok. A missing or empty list gets the "No accounts found" toast, and a thrown error gets its classified toast. A backend refusal shows "Connection Failed" with the reply's error or "Failed to connect wallet"; an unreachable backend shows the classified fetch error. |
| WalletConnect.ConnectWallet | client/src/components/WalletConnect.tsx:22-102 | The provider is asked exactly when it exists and no attempt is in flight; otherwise nothing changes. The user is replaced only by an ok backend reply. |
| WalletConnect.AccountsChanged | client/src/components/WalletConnect.tsx:106-115 | An empty list forgets the user, asks nothing and shows the disconnected info toast. A non-empty list behaves exactly as a reconnect. |
| WalletConnect.Disconnect | client/src/components/WalletConnect.tsx:133-138 | Clicking the connected button forgets the user, keeps the in-flight flag, asks nothing, and shows the "Wallet Disconnected" success toast. |
| WalletConnect.DisconnectThenCaption | client/src/components/WalletConnect.tsx:133-153 | After the click the caption is "Connect Wallet", or "Connecting..." while an attempt is in flight; a later successful connect brings the backend's user back. |
| WalletConnect.Caption | client/src/components/WalletConnect.tsx:128-153 | A known user is shown as the first six characters, "...", and the last four of their address. Otherwise the caption is "Connecting..." during an attempt and "Connect Wallet" when idle. |
| WalletConnect.InFlightAttemptIsExclusive | client/src/components/WalletConnect.tsx:30 | While an attempt is in flight, a second call from a click or an account change asks nothing and changes nothing. Settling the attempt always clears the flag. |
| WalletConnect.NoAccountsNoBackend | client/src/components/WalletConnect.tsx:40-42 | An empty account list never reaches the backend and shows "No accounts found". |
| Ethereum.WaitForTransaction | client/src/utils/ethereum.ts:62-86 | Polling makes between 1 and 30 requests, and no receipt was seen before the last one. A returned receipt is the last poll's. A timeout happens only after exactly 30 requests without a receipt, and throws "Transaction timeout". A poll that throws counts as one without a receipt. |
| Ethereum.NeverMinedTimesOut | client/src/utils/ethereum.ts:63-85 | A transaction that is never mined times out after exactly 30 requests. |
| Ethereum.HexQuantity | client/src/utils/ethereum.ts:24 | A quantity is "0x" followed by at least one lower-case base-16 digit, with no leading zero; 0 is sent as exactly "0x0". Reading the digits back in base 16 gives the value. |
| Ethereum.HexQuantityInjective | client/src/utils/ethereum.ts:24 | Different wei values give different hex quantities. |
| Ethereum.GasQuantity | client/src/utils/ethereum.ts:25 | The gas field of every request is "0x5208", which is 21000. |
| Ethereum.FailureToast | client/src/utils/ethereum.ts:45-57 | Every failure shows an error toast with a description. Code 4001 shows exactly "Transaction cancelled" / "You rejected the transaction", and only it has that title. Any other error shows "Transaction failed" with its message, or "Please try again later" when the message is empty. |
| Ethereum.SendTransaction | client/src/utils/ethereum.ts:3-60 | Without a provider, nothing is submitted and "MetaMask is not installed" is thrown. Otherwise exactly one request is submitted, from the sender to the recipient with the hex value and gas 0x5208. The result is a receipt only when one arrived with status "0x1". A rejected send shows only its failure toast. Once a hash arrives, the toasts are exactly "Transaction pending..." and then either "Transaction successful!" or the failure toast of the rethrown error. |
| UserStore.ConnectWallet | server/routes/auth.js:9-45 | Every answer is 200, 400 or 500, and 400 is given exactly for a falsy address. Any other failure, a database fault or a truthy non-string address, gets 500 "Internal server error". Any non-200 answer leaves the collection unchanged. 200 happens exactly for a non-empty string address and a healthy database. The record is then the one under the lower-cased address: created without dates if new, otherwise given a new `lastLogin` with `createdAt` kept. No other record changes, the returned user is the stored record, and records stay filed under their own address. |
| UserStore.Register | server/controllers/userController.js:3-12 | The address is stored exactly as given. 201 happens exactly when it is non-empty and not yet present and the save succeeds. Otherwise the answer is 500 "Error registering user" and the collection is unchanged. |
| UserStore.ReloginReusesRecord | server/routes/auth.js:18-30 | A second connect with the same address in any casing keeps the set of records and the record's `createdAt` and address, and stamps its `lastLogin`. |
| UserStore.ConnectIgnoresCase | server/routes/auth.js:18 | Two addresses that differ only in letter case get identical answers and identical collections. |
| UserStore.ConnectStoresLowerCase | server/routes/auth.js:22-24 | The upsert only ever files records under lower-case keys. |
| UserStore.RegisterSplitsCasings | server/controllers/userController.js:6-7 | For any collection and any two different, non-empty, not yet stored addresses that differ only in case, registering both succeeds twice and files both keys as two distinct records. |
| UserStore.CasingsExist | server/controllers/userController.js:6 | "0xAB" and "0xab" are two such addresses. |
| UserStore.ConnectMergesCasings | server/routes/auth.js:18-24 | For any collection and any two non-empty addresses that differ only in case, connecting both succeeds twice and adds only the one lower-cased key. |
| ConnectWalletRoute.Post | client/src/app/api/auth/connect-wallet/route.ts:3-36 | An unparseable body, a `null` body, or a truthy non-string address, gets 500. A falsy address gets 400. A non-empty string gets 200 with the lower-cased address and both dates set to the request time. |
| ConnectWalletRoute.PostIgnoresCase | client/src/app/api/auth/connect-wallet/route.ts:23 | Addresses differing only in case get the same answer. |
| ConnectWalletRoute.PostIdempotent | client/src/app/api/auth/connect-wallet/route.ts:23 | Posting the returned address again returns the same user. |
| ConnectWalletRoute.ButtonStoresLowerCasedAccount | client/src/components/WalletConnect.tsx:44-61 | The button connected through this route holds the lower-cased first account and shows the connected toast. |
| NftContext.AddNft | client/src/contexts/NFTContext.tsx:32-34 | Adding appends the NFT after all existing ones, in order. |
| NftContext.GetUserNfts | client/src/contexts/NFTContext.tsx:36-38 | The result keeps the collection's order, holds only NFTs whose owner matches the address ignoring case, and holds every such NFT as many times as the collection does. |
| NftContext.GetUserNftsIgnoresCase | client/src/contexts/NFTContext.tsx:37 | Addresses differing only in case get the same list. |
| NftContext.AddThenGet | client/src/contexts/NFTContext.tsx:32-37 | After adding an NFT owned by the address, the owner's list is the old list followed by that NFT. |
| NftContext.AddOtherOwner | client/src/contexts/NFTContext.tsx:32-37 | Adding an NFT owned by someone else leaves the address's list unchanged. |
| NftUserRoute.Get | client/src/app/api/nft/user/route.ts:8-31 | A missing or empty address gets 400. Otherwise the answer lists, in stored order, exactly the NFTs whose creator matches the address ignoring case, each as many times as it is stored. |
| NftUserRoute.GetIgnoresCase | client/src/app/api/nft/user/route.ts:21 | Addresses differing only in case get the same listing. |
| NftUserRoute.StoreNft | client/src/app/api/nft/user/route.ts:34-36 | `storeNFT` appends the NFT after every stored one, in order; the store's contents grow by exactly that NFT. |
| NftUserRoute.StoreThenGet | client/src/app/api/nft/user/route.ts:21-36 | After `storeNFT` stores an NFT created by the address, that address's listing is the old listing followed by that NFT. |
| NftCreateRoute.Extension | client/src/app/api/nft/create/route.ts:26 | The extension is the lower-cased text after the last '.' of the file name, or "jpg" when that text is empty. It never contains a '.'. |
| NftCreateRoute.ImageFileName | client/src/app/api/nft/create/route.ts:29 | The file name is the id, a '.', then the extension, and its last dotted segment is the extension. |
| NftCreateRoute.Post | client/src/app/api/nft/create/route.ts:7-75 | A form missing any field gets 400 "Missing required fields" and stores nothing. A failed write gets 500 "Failed to create NFT" and stores nothing. Otherwise exactly one NFT is stored with the form's fields, the generated id, `/nfts/<id>.<ext>` and the creator as given. |
| NftCreateRoute.CreatedNftIsListed | client/src/app/api/nft/create/route.ts:50-61 | An NFT the route created appears last in its creator's listing. |
| UploadAvatarRoute.AvatarFileName | client/src/app/api/profile/upload-avatar/route.ts:28-29 | The stored name starts with the lower-cased address and "_", and ends with a '.' and the uploaded file's last dotted segment. |
| UploadAvatarRoute.AvatarNameKeepsExtension | client/src/app/api/profile/upload-avatar/route.ts:28-29 | The stored name's last dotted segment is the uploaded file's. |
| UploadAvatarRoute.StampedNameStamp | client/src/app/api/profile/upload-avatar/route.ts:29 | Between the owner prefix and the final '.' stands a decimal numeral that reads back as the upload time. |
| UploadAvatarRoute.AvatarNamesAreUnique | client/src/app/api/profile/upload-avatar/route.ts:27-29 | Uploads of the same file for the same address at different times get different names. |
| UploadAvatarRoute.Post | client/src/app/api/profile/upload-avatar/route.ts:6-65 | Missing fields get 400 and change nothing. A failure gets 500 with the error's message, or "Unknown error" for non-`Error`s, and changes nothing. 200 happens exactly when both fields are present and nothing fails. It returns the new URL and records it only on the user stored under exactly the submitted address; no other record changes. |
| UploadAvatarRoute.StoredUrlIsReturnedUrl | client/src/app/api/profile/upload-avatar/route.ts:40-54 | After a successful upload for a stored address, the record's avatar is the URL that was returned. |
| AvatarUpload.InitialPreview | client/src/components/profile/AvatarUpload.tsx:15-16 | The preview starts as the current avatar when it is non-empty, and as the default picture otherwise. It is never empty. |
| AvatarUpload.HandleFileChange | client/src/components/profile/AvatarUpload.tsx:19-46 | A file is passed on exactly when it is an image of at most 5 MiB. It then becomes the preview and no toast shows. Non-images get the invalid-type toast before size is looked at, and oversized images get the too-large toast. Otherwise the preview is kept. |
| AvatarUpload.SizeBoundIsInclusive | client/src/components/profile/AvatarUpload.tsx:32 | An image of exactly 5242880 bytes is accepted, and one of 5242881 bytes is refused as too large. |
| CreatePage.HandleImageChange | client/src/app/create/page.tsx:27-43 | Only an image becomes the form's image. A non-image shows the invalid-type toast and keeps the form; no file does nothing. |
| CreatePage.HandleSubmit | client/src/app/create/page.tsx:45-97 | Without an address, or without an image, the page shows its toast and the collection is unchanged. Otherwise exactly one NFT is appended, owned by the address, with the form's fields and no creator, and the page goes to "/my-files". |
| CreatePage.SubmittedNftIsOwned | client/src/app/create/page.tsx:71-81 | The submitted NFT is last in its owner's list. |
| ProfilePage.LoadData | client/src/app/profile/page.tsx:52-68 | With an address, the owned list is the owner query. The created list is the order-preserving sublist of owned NFTs whose creator is exactly the address, with each such NFT as many times as it is owned. Without one, the lists are kept. Loading always ends. |
| ProfilePage.SubmittedNftIsOwnedNotCreated | client/src/app/profile/page.tsx:57-59 | An NFT made on the create page shows up as owned but never as created, because it has no creator. |
| ProfilePage.HandleAvatarChange | client/src/app/profile/page.tsx:73-102 | The avatar changes, to the returned URL, only on an ok and readable reply. Everything else keeps it and shows the failure toast. |
| ProfilePage.AvatarRoundTrip | client/src/app/profile/page.tsx:76-91 | Without an address the page sends "", the route answers 400, and neither the avatar nor the records change. With one, the avatar becomes the URL the route stored. |
| Text.Lower | server/routes/auth.js:18 | `toLowerCase` keeps the length and maps each character through the ASCII lower-casing, position by position. |
| Text.Digits | client/src/utils/ethereum.ts:24 | `toString(radix)` gives at least one canonical lower-case digit of the base, with no leading zero; 0 is written "0". Its inverse is stated by `Text.DigitsRoundTrip`. |
| Text.ShortAddress | client/src/app/profile/page.tsx:145 | An address of at least ten characters is shown in 13 characters: its first six, "...", and its last four. |
| Text.LastSegment | client/src/app/api/profile/upload-avatar/route.ts:28 | The result is a suffix of the name with no '.'. It is the whole name when the name has no '.', and otherwise it follows the last '.'. |
| Text.LastSegmentOfJoin | client/src/app/api/nft/create/route.ts:29 | Joining a stem and a dot-free extension with '.' gives back that extension as the last segment. |
| Text.DigitsRoundTrip | client/src/utils/ethereum.ts:24 | Reading back the digits `toString(radix)` writes gives the number. |
| Seqs.Filter | client/src/contexts/NFTContext.tsx:37 | `Array.prototype.filter` keeps the elements that pass, in order, and only those; each passing element appears as often as in the input. |
| NftModel.Make | client/src/models/NFT.ts:22-32 | A missing or empty id is replaced by the generated one, and missing dates by the current time. Both addresses are lower-cased and every other field is kept. |
| NftModel.RebuildIsIdentity | client/src/models/NFT.ts:23-31 | Passing a built NFT back to the constructor gives the same NFT. |
| UserModel.Make | client/src/models/User.ts:10-14 | The address is lower-cased and the dates are kept. |
| UserModel.RebuildIsIdentity | client/src/models/User.ts:11-13 | Rebuilding a user from its own fields gives the same user. |
| UserModel.IgnoresCase | client/src/models/User.ts:11 | Addresses differing only in case give equal users. |
| FileCard.TypeColor | client/src/components/marketplace/FileCard.tsx:18-29 | pdf, zip and xlsx, in any casing, get the red, blue and green badges. Every other type gets the gray one. |
| FileCard.TypeIcon | client/src/components/marketplace/FileCard.tsx:31-42 | pdf, zip and xlsx, in any casing, get their icons. Every other type gets the generic file icon. |
| FileCard.LookupsAgree | client/src/components/marketplace/FileCard.tsx:18-42 | The colour and the icon fall back to their defaults for exactly the same types, and neither depends on letter case. |
| FileCard.CardImage | client/src/components/marketplace/FileCard.tsx:47-64 | A non-empty image URL is shown. A missing or empty one shows the type's icon. |

## Left out

- The ETH-to-wei conversion (`parseFloat` times 10^18, rounded) uses floating point. The model takes the wei amount as a natural number.
- The two-second sleep between receipt polls is left out. The model records how many requests were made.
- The receipt requests are not tied to the transaction hash. The provider's answers to successive polls are a parameter.
- `Date.now()`, `new Date()`, `uuidv4()` and `Math.random()` are left out. Their values are parameters.
- Two clock reads within one handler are taken as one instant. The route's `createdAt` and `lastLogin` (client/src/app/api/auth/connect-wallet/route.ts:24-25), and the model's `createdAt` and `updatedAt` defaults (client/src/models/NFT.ts:30-31), may differ by a millisecond in the code; the model gives each pair one clock value.
- File-system writes are left out. Whether they fail is a parameter.
- MongoDB and mongoose are left out. Each collection is a map, and database failures are a parameter.
- `UserStore.ConnectWallet` assumes the `lastLogin` assignment is saved. Mongoose's strict mode would drop it, because the schema does not declare the field.
- `UserStore.Register` takes the address as an optional string. Mongoose casting a non-string address is not modelled.
- The `WalletContext` registration request (`lib/api.ts`) is left out. Whether it succeeded is a parameter.
- `localStorage` persistence of the NFT list is left out.
- Toasts, console logging and router navigation are left out. Handlers return the toast they show and the path they push, as data.
- Concurrency is left out: interleaved async handlers and React's state batching and stale closures. Each handler runs as one step, except for the `WalletConnect` attempt, which is split at its in-flight flag.
- `toLowerCase` is modelled for ASCII only. Unicode case mapping is left out.
- The `FileReader` data URL and `URL.createObjectURL` are left out. They are parameters, and revoking the object URL is not modelled.
- Form fields of the wrong kind, such as text sent where a file is expected, are left out.
- `CreatePage.HandleSubmit` does not model the `catch` branch. Nothing in the modelled submit can throw.
- `ProfilePage.LoadData` does not model the `catch` branch. The owner query cannot throw in the model.
- Markup, styling, mock data, the marketplace listing and detail pages, and the placeholder purchase and single-NFT routes are left out. They hold no logic of the core.
- `WalletLogin.js`, `contracts/compile.js` and the `window.d.ts` typings are left out. They are outside the core.

=== FILE: avatar.dfy ===
/** Avatar upload on the server (`POST /api/profile/upload-avatar`): validate
    the form, name the file after the lower-cased address and the upload
    time, and record its URL on the user whose stored `walletAddress` equals
    the submitted one exactly. The clock readings and any failure of the
    file write or the database are parameters. */
module UploadAvatarRoute {
  import opened Js
  import Text

  /** The avatar fields of a user record. */
  datatype ProfileDoc = ProfileDoc(avatarUrl: Option<string>, updatedAt: Option<nat>)

  /** The `users` collection, keyed by the stored `walletAddress`. */
  type Users = map<string, ProfileDoc>

  /** `${walletAddress.toLowerCase()}_${Date.now()}.${ext}` where `ext` is
      the text after the last '.' of the uploaded name, case kept, with no
      default. Between the owner prefix and the final '.' stand the decimal
      digits of the upload time. */
  function AvatarFileName(walletAddress: string, stamp: nat, fileName: string): (r: string)
    ensures var owner := Text.Lower(walletAddress) + "_";
            var ext := Text.LastSegment(fileName);
            && |owner| + 1 + |ext| < |r|
            && r[..|owner|] == owner
            && r[|r| - |ext| - 1] == '.' && r[|r| - |ext|..] == ext
  {
    var owner := Text.Lower(walletAddress) + "_";
    var ext := Text.LastSegment(fileName);
    StampedName(owner, stamp, ext);
    owner + Text.Digits(stamp, 10) + "." + ext
  }

  /** The stored file keeps the uploaded file's extension: its last dotted
      segment is the upload's. */
  lemma AvatarNameKeepsExtension(walletAddress: string, stamp: nat, fileName: string)
    ensures Text.LastSegment(AvatarFileName(walletAddress, stamp, fileName)) == Text.LastSegment(fileName)
  {
    StampedName(Text.Lower(walletAddress) + "_", stamp, Text.LastSegment(fileName));
  }

  /** The stamped name `owner + digits + "." + ext`, for any owner prefix and
      any extension without a '.': where its parts sit. */
  lemma StampedName(owner: string, stamp: nat, ext: string)
    requires '.' !in ext
    ensures var r := owner + Text.Digits(stamp, 10) + "." + ext;
            Text.LastSegment(r) == ext
    ensures var r := owner + Text.Digits(stamp, 10) + "." + ext;
            && |owner| + 1 + |ext| < |r|
            && r[..|owner|] == owner
            && r[|r| - |ext| - 1] == '.' && r[|r| - |ext|..] == ext
  {
    var digits := Text.Digits(stamp, 10);
    NameParts(owner, digits, ext);
    Text.LastSegmentOfJoin(owner + digits, ext);
  }

  /** The middle of a stamped name is a decimal numeral that reads back as
      the stamp. */
  lemma StampedNameStamp(owner: string, stamp: nat, ext: string)
    ensures var r := owner + Text.Digits(stamp, 10) + "." + ext;
            var middle := r[|owner|..|r| - |ext| - 1];
            Text.AllDigits(middle, 10) && Text.FromDigits(middle, 10) == stamp
  {
    var digits := Text.Digits(stamp, 10);
    NameParts(owner, digits, ext);
    Text.DigitsRoundTrip(stamp, 10);
  }

  /** Where the three parts of a stamped name sit. */
  lemma NameParts(owner: string, digits: string, ext: string)
    ensures var r := owner + digits + "." + ext;
            && |r| == |owner| + |digits| + 1 + |ext|
            && r[..|owner|] == owner
            && r[|owner|..|r| - |ext| - 1] == digits
            && r[|r| - |ext| - 1] == '.' && r[|r| - |ext|..] == ext
  {
    var r := owner + digits + "." + ext;
    assert r == owner + (digits + ("." + ext));
  }

  /** Uploads of the same file for the same address at different times get
      different names, so a later upload never overwrites an earlier one. */
  lemma AvatarNamesAreUnique(walletAddress: string, fileName: string, stamp1: nat, stamp2: nat)
    requires stamp1 != stamp2
    ensures AvatarFileName(walletAddress, stamp1, fileName) != AvatarFileName(walletAddress, stamp2, fileName)
  {
    var owner := Text.Lower(walletAddress) + "_";
    var ext := Text.LastSegment(fileName);
    var r1 := owner + Text.Digits(stamp1, 10) + "." + ext;
    var r2 := owner + Text.Digits(stamp2, 10) + "." + ext;
    StampedNameStamp(owner, stamp1, ext);
    StampedNameStamp(owner, stamp2, ext);
    var m1, m2 := r1[|owner|..|r1| - |ext| - 1], r2[|owner|..|r2| - |ext| - 1];
    assert Text.FromDigits(m1, 10) != Text.FromDigits(m2, 10);
    assert r1 != r2;
  }

  /** The HTTP answer together with the collection after the request. */
  datatype Uploaded = Uploaded(users: Users, status: nat, avatarUrl: Option<string>, error: string, details: string)

  /** `POST`. A missing `walletAddress` field arrives as "": the route's
      falsiness check treats it like an empty one. */
  function Post(users: Users, avatar: Option<File>, walletAddress: string, stamp: nat, updatedAt: nat,
                fault: Option<JsError>): (u: Uploaded)
    ensures avatar.None? || walletAddress == "" ==> u == Uploaded(users, 400, None, "Missing required fields", "")
    ensures avatar.Some? && walletAddress != "" && fault.Some? ==>
              && u.status == 500 && u.users == users && u.avatarUrl.None?
              && u.error == "Failed to upload avatar"
              && u.details == (if fault.value.isError then fault.value.message else "Unknown error")
    ensures u.status == 200 <==> avatar.Some? && walletAddress != "" && fault.None?
    ensures u.status == 200 ==>
              && u.avatarUrl == Some("/avatars/" + AvatarFileName(walletAddress, stamp, avatar.value.name))
              && (walletAddress in users ==> u.users == users[walletAddress := ProfileDoc(u.avatarUrl, Some(updatedAt))])
              && (walletAddress !in users ==> u.users == users)
  {
    if avatar.None? || walletAddress == "" then Uploaded(users, 400, None, "Missing required fields", "")
    else match fault
      case Some(e) =>
        Uploaded(users, 500, None, "Failed to upload avatar", if e.isError then e.message else "Unknown error")
      case None =>
        var url := "/avatars/" + AvatarFileName(walletAddress, stamp, avatar.value.name);
        var updated := if walletAddress in users
                       then users[walletAddress := ProfileDoc(Some(url), Some(updatedAt))]
                       else users;
        Uploaded(updated, 200, Some(url), "", "")
  }

  /** A successful upload's URL is the one now on the user record, when the
      record exists under exactly the submitted address. */
  lemma StoredUrlIsReturnedUrl(users: Users, avatar: File, walletAddress: string, stamp: nat, updatedAt: nat)
    requires walletAddress != "" && walletAddress in users
    ensures var u := Post(users, Some(avatar), walletAddress, stamp, updatedAt, None);
            u.status == 200 && u.users[walletAddress].avatarUrl == u.avatarUrl
  {
  }
}

/** The avatar picker (`AvatarUpload`): the preview it shows and the file it
    passes on. The object URL created for an accepted file is a parameter. */
module AvatarUpload {
  import opened Js
  import Text

  const DefaultAvatar := "https://images.unsplash.com/photo-1511367461989-f85a21fda167?q=80&w=200&h=200&fit=crop"

  /** The largest accepted file: 5 MiB. */
  const MaxBytes: nat := 5 * 1024 * 1024

  const InvalidType := Toast(Failure, "Invalid file type", "Please upload an image file")
  const TooLarge := Toast(Failure, "File too large", "Please upload an image smaller than 5MB")

  /** `currentAvatar || defaultAvatar`. */
  function InitialPreview(currentAvatar: Option<string>): (r: string)
    ensures r != ""
    ensures currentAvatar.Some? && currentAvatar.value != "" ==> r == currentAvatar.value
    ensures currentAvatar.None? || currentAvatar == Some("") ==> r == DefaultAvatar
  {
    match currentAvatar
    case Some(a) => OrElse(a, DefaultAvatar)
    case None => DefaultAvatar
  }

  /** The picker after a file choice: its preview, the file handed to
      `onAvatarChange` (at most one), and the toast shown. */
  datatype Change = Change(preview: string, delivered: Option<File>, toast: Option<Toast>)

  /** The file passes both checks. */
  predicate Acceptable(f: File)
  {
    IsImage(f) && f.size <= MaxBytes
  }

  /** `handleFileChange`: no file does nothing; the type is checked before
      the size; an accepted file becomes the preview and is passed on. */
  function HandleFileChange(preview: string, file: Option<File>, objectUrl: string): (c: Change)
    ensures c.delivered.Some? <==> file.Some? && Acceptable(file.value)
    ensures c.delivered.Some? ==> c.delivered == file && c.preview == objectUrl && c.toast.None?
    ensures c.delivered.None? ==> c.preview == preview
    ensures file.None? ==> c.toast.None?
    ensures file.Some? && !IsImage(file.value) ==> c.toast == Some(InvalidType)
    ensures file.Some? && IsImage(file.value) && file.value.size > MaxBytes ==> c.toast == Some(TooLarge)
  {
    match file
    case None => Change(preview, None, None)
    case Some(f) =>
      if !IsImage(f) then Change(preview, None, Some(InvalidType))
      else if f.size > MaxBytes then Change(preview, None, Some(TooLarge))
      else Change(objectUrl, Some(f), None)
  }

  /** The bound is inclusive: an image of exactly 5 MiB is accepted, one
      byte more is not. */
  lemma SizeBoundIsInclusive(preview: string, name: string, objectUrl: string)
    ensures HandleFileChange(preview, Some(File(name, "image/png", 5242880)), objectUrl).delivered.Some?
    ensures HandleFileChange(preview, Some(File(name, "image/png", 5242881)), objectUrl).toast == Some(TooLarge)
  {
    assert "image/png"[..6] == "image/";
  }
}

=== FILE: connect_wallet_route.dfy ===
/** The Next.js stand-in for the registration endpoint
    (`POST /api/auth/connect-wallet`): it validates the address and echoes a
    user record without storing anything. The current time, as the ISO
    string `new Date().toISOString()` gives, is a parameter. */
module ConnectWalletRoute {
  import opened Js
  import Text
  import WalletConnect
  import Provider

  /** The request body: not JSON at all, the JSON `null`, or any other JSON
      value with its `walletAddress` property. A number, string or array has
      no such property, so it is a `Json` whose field is `Absent`. */
  datatype Body = Unparseable | Null | Json(walletAddress: Field)

  /** The HTTP answer: status, the `user` of a successful reply, and the
      `error` text of a failed one. */
  datatype Reply = Reply(status: nat, user: Option<WalletConnect.User>, error: string)

  const Required := "Wallet address is required"
  const Internal := "Internal server error"

  /** `POST`: 400 without an address, 500 when the body cannot be read, is
      `null` (destructuring it throws) or the address has no `toLowerCase`, otherwise 200 with the lower-cased
      address and both timestamps set to now. */
  function Post(body: Body, now: string): (r: Reply)
    ensures r.status in {200, 400, 500}
    ensures r.status == 200 <==> body.Json? && body.walletAddress.Str? && body.walletAddress.s != ""
    ensures r.status == 200 ==>
              r.user == Some(WalletConnect.User(Text.Lower(body.walletAddress.s), now, now))
    ensures r.status == 200 ==> Text.IsLower(r.user.value.walletAddress)
    ensures r.status == 400 <==> body.Json? && !Truthy(body.walletAddress)
    ensures r.status != 200 ==> r.user.None? && r.error == (if r.status == 400 then Required else Internal)
  {
    match body
    case Unparseable => Reply(500, None, Internal)
    case Null => Reply(500, None, Internal)
    case Json(Absent) => Reply(400, None, Required)
    case Json(NonString(truthy)) =>
      // a truthy non-string has no toLowerCase: the TypeError lands in the catch
      if truthy then Reply(500, None, Internal) else Reply(400, None, Required)
    case Json(Str(s)) =>
      if s == "" then Reply(400, None, Required)
      else
        Text.LowerIsLower(s);
        Reply(200, Some(WalletConnect.User(Text.Lower(s), now, now)), "")
  }

  /** Two addresses that differ only in case get the same answer. */
  lemma PostIgnoresCase(a: string, b: string, now: string)
    requires Text.SameIgnoringCase(a, b)
    ensures Post(Json(Str(a)), now) == Post(Json(Str(b)), now)
  {
    assert a == "" <==> b == "" by {
      assert |Text.Lower(a)| == |a| && |Text.Lower(b)| == |b|;
    }
  }

  /** Posting the echoed address again returns the same user: the route is
      idempotent on its own output. */
  lemma PostIdempotent(a: string, now: string)
    requires a != ""
    ensures var r := Post(Json(Str(a)), now);
            Post(Json(Str(r.user.value.walletAddress)), now) == r
  {
    Text.LowerIdempotent(a);
  }

  /** The answer as the wallet button receives it. */
  function AsBackendReply(r: Reply): (b: WalletConnect.BackendReply)
    ensures b.Replied? && (b.ok <==> r.status == 200) && b.user == r.user
  {
    WalletConnect.Replied(r.status == 200, r.error, r.user)
  }

  /** The wallet button talking to this route: connecting with a non-empty
      first account stores the lower-cased account as the button's user. */
  lemma ButtonStoresLowerCasedAccount(b: WalletConnect.Button, first: string, rest: seq<string>, now: string)
    requires !b.isConnecting && first != ""
    ensures var o := WalletConnect.ConnectWallet(b, true, Provider.Accounts([first] + rest),
                                                 AsBackendReply(Post(Json(Str(first)), now)));
            && o.posted == Some(first)
            && o.button.user == Some(WalletConnect.User(Text.Lower(first), now, now))
  {
  }
}

=== FILE: ethereum.dfy ===
/** Submitting a value transfer through the wallet provider and waiting for
    it to be mined (`sendTransaction`, `waitForTransaction`). The amount is
    already an integer number of wei; the provider's answers to
    `eth_sendTransaction` and to each `eth_getTransactionReceipt` poll are
    parameters, and the two-second pause between polls is not modelled. */
module Ethereum {
  import opened Js
  import opened Provider
  import Text

  /** Receipt requests made before giving up (30 polls, two seconds apart). */
  const MaxAttempts: nat := 30

  /** The gas limit of a plain transfer. */
  const GasLimit: nat := 21000

  datatype Receipt = Receipt(status: string, transactionHash: string)

  /** The answer to one receipt request: a receipt, `null` while the
      transaction is not mined, or a thrown error. */
  datatype Poll = Mined(receipt: Receipt) | NotMined | PollThrew(err: JsError)

  /** The answer to the `i`-th receipt request (counting from 0); answers
      beyond the given ones are `null`. */
  function PollAt(polls: seq<Poll>, i: nat): Poll
  {
    if i < |polls| then polls[i] else NotMined
  }

  /** None of the first `k` requests returned a receipt. */
  predicate NoReceiptBefore(polls: seq<Poll>, k: nat)
  {
    forall i :: 0 <= i < k ==> !PollAt(polls, i).Mined?
  }

  const Timeout := "Transaction timeout"

  /** `waitForTransaction`: poll until a receipt arrives or 30 requests have
      gone unanswered. Returns the receipt (or the timeout error) and the
      number of requests made. A request that throws is swallowed and counts
      as an attempt. */
  method WaitForTransaction(polls: seq<Poll>) returns (receipt: Result<Receipt>, requests: nat)
    ensures 1 <= requests <= MaxAttempts
    ensures NoReceiptBefore(polls, requests - 1)
    ensures receipt.Ok? ==> PollAt(polls, requests - 1) == Mined(receipt.value)
    ensures receipt.Thrown? ==> requests == MaxAttempts && NoReceiptBefore(polls, MaxAttempts)
    ensures receipt.Thrown? ==> receipt.err == Plain(Timeout)
  {
    var attempts: nat := 0;
    while attempts < MaxAttempts
      invariant attempts <= MaxAttempts
      invariant NoReceiptBefore(polls, attempts)
      decreases MaxAttempts - attempts
    {
      var answer := PollAt(polls, attempts);
      if answer.Mined? {
        return Ok(answer.receipt), attempts + 1;
      }
      attempts := attempts + 1;
    }
    return Thrown(Plain(Timeout)), attempts;
  }

  /** A quantity as the provider expects it: "0x" and the lower-case hex
      digits of the number, without leading zeros. */
  function HexQuantity(n: nat): (r: string)
    ensures |r| >= 3 && r[..2] == "0x"
    ensures Text.AllDigits(r[2..], 16)
    ensures r[2] == '0' ==> n == 0 && r == "0x0"
    ensures Text.FromDigits(r[2..], 16) == n
  {
    Text.DigitsRoundTrip(n, 16);
    "0x" + Text.Digits(n, 16)
  }

  /** The gas field is always "0x5208". */
  lemma GasQuantity()
    ensures HexQuantity(GasLimit) == "0x5208"
  {
    assert Text.Digits(5, 16) == "5";
    assert Text.Digits(82, 16) == "52";
    assert Text.Digits(1312, 16) == "520";
    assert Text.Digits(21000, 16) == "5208";
  }

  /** Different amounts are submitted as different value fields. */
  lemma HexQuantityInjective(m: nat, n: nat)
    requires HexQuantity(m) == HexQuantity(n)
    ensures m == n
  {
    assert HexQuantity(m)[2..] == HexQuantity(n)[2..];
  }

  /** The `eth_sendTransaction` request. */
  datatype TxRequest = TxRequest(from: string, to: string, value: string, gas: string)

  /** The answer to `eth_sendTransaction`: a transaction hash or a thrown
      error. */
  datatype SendReply = Hash(txHash: string) | SendThrew(err: JsError)

  /** Everything `sendTransaction` did: its result (the receipt, or the error
      it rethrew), the request it submitted, the number of receipt requests,
      and the toasts it showed, in order. */
  datatype Sent = Sent(result: Result<Receipt>, submitted: Option<TxRequest>, requests: nat, toasts: seq<Toast>)

  const NotInstalled := "MetaMask is not installed"
  const Reverted := "Transaction failed"
  const Pending := Toast(Loading, "Transaction pending...", "Please wait while your transaction is being processed")
  const Confirmed := Toast(Success, "Transaction successful!", "Your NFT purchase has been completed")

  /** The toast shown before an error is rethrown: a user rejection is a
      cancellation, anything else a failure with the error's message. */
  function FailureToast(e: JsError): (t: Toast)
    ensures t.kind == Failure && t.description != ""
    ensures e.code == Some(UserRejected) <==> t.title == "Transaction cancelled"
    ensures e.code == Some(UserRejected) ==> t == Toast(Failure, "Transaction cancelled", "You rejected the transaction")
    ensures e.code != Some(UserRejected) ==>
              && t.title == Reverted
              && (e.message != "" ==> t.description == e.message)
              && (e.message == "" ==> t.description == "Please try again later")
  {
    if e.code == Some(UserRejected) then Toast(Failure, "Transaction cancelled", "You rejected the transaction")
    else Toast(Failure, "Transaction failed", OrElse(e.message, "Please try again later"))
  }

  /** `sendTransaction` for an amount of `wei`. */
  method SendTransaction(hasProvider: bool, from: string, to: string, wei: nat, send: SendReply, polls: seq<Poll>)
    returns (s: Sent)
    ensures s.requests <= MaxAttempts
    ensures !hasProvider ==> s == Sent(Thrown(Plain(NotInstalled)), None, 0, [FailureToast(Plain(NotInstalled))])
    ensures hasProvider ==> s.submitted == Some(TxRequest(from, to, HexQuantity(wei), HexQuantity(GasLimit)))
    ensures hasProvider && send.SendThrew? ==> s.result == Thrown(send.err) && s.requests == 0
    ensures hasProvider && send.SendThrew? ==> s.toasts == [FailureToast(send.err)]
    ensures hasProvider && send.Hash? ==>
              s.toasts == [Pending, if s.result.Ok? then Confirmed else FailureToast(s.result.err)]
    ensures s.result.Thrown? ==> |s.toasts| > 0 && s.toasts[|s.toasts| - 1] == FailureToast(s.result.err)
    ensures s.result.Ok? ==> s.result.value.status == "0x1" && |s.toasts| > 0 && s.toasts[|s.toasts| - 1] == Confirmed
    ensures hasProvider && send.Hash? ==>
              && 1 <= s.requests
              && NoReceiptBefore(polls, s.requests - 1)
              && |s.toasts| > 0 && s.toasts[0] == Pending
              && (PollAt(polls, s.requests - 1).Mined? || (s.requests == MaxAttempts && s.result == Thrown(Plain(Timeout))))
    ensures hasProvider && send.Hash? && 1 <= s.requests && PollAt(polls, s.requests - 1).Mined? ==>
              var r := PollAt(polls, s.requests - 1).receipt;
              s.result == if r.status == "0x1" then Ok(r) else Thrown(Plain(Reverted))
  {
    if !hasProvider {
      var e := Plain(NotInstalled);
      return Sent(Thrown(e), None, 0, [FailureToast(e)]);
    }
    var request := TxRequest(from, to, HexQuantity(wei), HexQuantity(GasLimit));
    match send {
      case SendThrew(e) =>
        s := Sent(Thrown(e), Some(request), 0, [FailureToast(e)]);
      case Hash(_) =>
        var receipt, requests := WaitForTransaction(polls);
        match receipt {
          case Thrown(e) =>
            s := Sent(Thrown(e), Some(request), requests, [Pending, FailureToast(e)]);
          case Ok(r) =>
            if r.status == "0x1" {
              s := Sent(Ok(r), Some(request), requests, [Pending, Confirmed]);
            } else {
              var e := Plain(Reverted);
              s := Sent(Thrown(e), Some(request), requests, [Pending, FailureToast(e)]);
            }
        }
    }
  }

  /** Thirty `null` receipts time the transfer out after exactly thirty
      requests. */
  method NeverMinedTimesOut(from: string, to: string, wei: nat, h: string) returns (s: Sent)
    ensures s.result == Thrown(Plain(Timeout)) && s.requests == MaxAttempts
  {
    s := SendTransaction(true, from, to, wei, Hash(h), seq(MaxAttempts, _ => NotMined));
  }
}

=== FILE: file_card.dfy ===
/** The marketplace file card (`FileCard`): the badge colour and icon chosen
    for a file type, and whether the card shows the image or the icon. */
module FileCard {
  import opened Js
  import Text

  const PdfBadge := "bg-red-100 text-red-800"
  const ZipBadge := "bg-blue-100 text-blue-800"
  const XlsxBadge := "bg-green-100 text-green-800"
  const OtherBadge := "bg-gray-100 text-gray-800"

  const PdfIcon := "/icons/pdf-icon.svg"
  const ZipIcon := "/icons/zip-icon.svg"
  const XlsxIcon := "/icons/excel-icon.svg"
  const OtherIcon := "/icons/file-icon.svg"

  /** A type the card knows, in any casing. */
  predicate Known(t: string)
  {
    Text.Lower(t) in {"pdf", "zip", "xlsx"}
  }

  /** `getFileTypeColor`. */
  function TypeColor(t: string): (c: string)
    ensures Known(t) <==> c != OtherBadge
    ensures Text.Lower(t) == "pdf" ==> c == PdfBadge
    ensures Text.Lower(t) == "zip" ==> c == ZipBadge
    ensures Text.Lower(t) == "xlsx" ==> c == XlsxBadge
  {
    match Text.Lower(t)
    case "pdf" => PdfBadge
    case "zip" => ZipBadge
    case "xlsx" => XlsxBadge
    case _ => OtherBadge
  }

  /** `getFileIcon`. */
  function TypeIcon(t: string): (i: string)
    ensures Known(t) <==> i != OtherIcon
    ensures Text.Lower(t) == "pdf" ==> i == PdfIcon
    ensures Text.Lower(t) == "zip" ==> i == ZipIcon
    ensures Text.Lower(t) == "xlsx" ==> i == XlsxIcon
  {
    match Text.Lower(t)
    case "pdf" => PdfIcon
    case "zip" => ZipIcon
    case "xlsx" => XlsxIcon
    case _ => OtherIcon
  }

  /** The two lookups recognise the same types, and neither sees case. */
  lemma LookupsAgree(t: string, u: string)
    ensures TypeColor(t) == OtherBadge <==> TypeIcon(t) == OtherIcon
    ensures Text.SameIgnoringCase(t, u) ==> TypeColor(t) == TypeColor(u) && TypeIcon(t) == TypeIcon(u)
  {
  }

  /** The picture the card shows: the image when there is a non-empty
      `imageUrl`, the type's icon otherwise. */
  function CardImage(imageUrl: Option<string>, t: string): (src: string)
    ensures imageUrl.Some? && imageUrl.value != "" ==> src == imageUrl.value
    ensures imageUrl.None? || imageUrl == Some("") ==> src == TypeIcon(t)
  {
    match imageUrl
    case Some(url) => OrElse(url, TypeIcon(t))
    case None => TypeIcon(t)
  }
}

=== FILE: js.dfy ===
/** Shapes of the JavaScript values the application passes around: optional
    values, thrown errors, JSON body fields, uploaded files and the toast
    notifications the UI shows. */
module Js {
  import Text

  /** `null`/`undefined` versus a present value. */
  datatype Option<+T> = None | Some(value: T)

  /** Either a value or the error a call threw. */
  datatype Result<+T> = Ok(value: T) | Thrown(err: JsError)

  /** A thrown value. `code` is the numeric `code` property when there is one
      (wallet providers set it, plain `Error`s do not); `isError` says whether
      the value is an `Error` instance, which decides whether its `message`
      is shown. */
  datatype JsError = JsError(code: Option<int>, message: string, isError: bool)

  /** A plain `new Error(message)`. */
  function Plain(message: string): JsError
  {
    JsError(None, message, true)
  }

  /** `error.code` used as a condition: present and non-zero. */
  predicate CodeTruthy(e: JsError)
  {
    e.code.Some? && e.code.value != 0
  }

  /** A field of a parsed JSON request body. A string is falsy exactly when it
      is empty; a non-string value has its own truthiness and no
      `toLowerCase`. */
  datatype Field = Absent | Str(s: string) | NonString(truthy: bool)

  predicate Truthy(f: Field)
  {
    match f
    case Absent => false
    case Str(s) => s != ""
    case NonString(t) => t
  }

  /** An uploaded `File`: its name, MIME type and size in bytes. A `File`
      object is truthy whatever its contents. */
  datatype File = File(name: string, mimeType: string, size: nat)

  /** `file.type.startsWith('image/')`. */
  predicate IsImage(f: File)
  {
    Text.StartsWith(f.mimeType, "image/")
  }

  datatype ToastKind = Success | Failure | Info | Loading

  /** A toast notification: kind, title and description. */
  datatype Toast = Toast(kind: ToastKind, title: string, description: string)

  /** `a || b` on strings. */
  function OrElse(a: string, b: string): string
  {
    if a != "" then a else b
  }
}

=== FILE: models.dfy ===
/** The `NFT` model class: its constructor fills in a missing id and dates
    and lower-cases both addresses. The generated id
    (`${Date.now()}_${random}`) and the current time are parameters. */
module NftModel {
  import opened Js
  import Text

  /** The constructor's argument; `Date`s are numbers here. */
  datatype NftData = NftData(id: Option<string>, name: string, description: string, price: string, imageUrl: string,
                             creator: string, owner: string, createdAt: Option<nat>, updatedAt: Option<nat>)

  datatype Nft = Nft(id: string, name: string, description: string, price: string, imageUrl: string,
                     creator: string, owner: string, createdAt: nat, updatedAt: nat)

  /** `new NFT(data)`. */
  function Make(d: NftData, freshId: string, now: nat): (n: Nft)
    ensures d.id.Some? && d.id.value != "" ==> n.id == d.id.value
    ensures d.id.None? || d.id == Some("") ==> n.id == freshId
    ensures n.name == d.name && n.description == d.description && n.price == d.price && n.imageUrl == d.imageUrl
    ensures n.creator == Text.Lower(d.creator) && n.owner == Text.Lower(d.owner)
    ensures Text.IsLower(n.creator) && Text.IsLower(n.owner)
    ensures d.createdAt.Some? ==> n.createdAt == d.createdAt.value
    ensures d.updatedAt.Some? ==> n.updatedAt == d.updatedAt.value
    ensures d.createdAt.None? ==> n.createdAt == now
    ensures d.updatedAt.None? ==> n.updatedAt == now
  {
    Text.LowerIsLower(d.creator);
    Text.LowerIsLower(d.owner);
    Nft(match d.id case Some(i) => OrElse(i, freshId) case None => freshId,
        d.name, d.description, d.price, d.imageUrl,
        Text.Lower(d.creator), Text.Lower(d.owner),
        match d.createdAt case Some(t) => t case None => now,
        match d.updatedAt case Some(t) => t case None => now)
  }

  /** An NFT passed back to the constructor as its data. */
  function AsData(n: Nft): NftData
  {
    NftData(Some(n.id), n.name, n.description, n.price, n.imageUrl, n.creator, n.owner, Some(n.createdAt), Some(n.updatedAt))
  }

  /** Rebuilding an NFT with a non-empty id gives it back unchanged:
      lower-casing is idempotent and every other field is kept. */
  lemma RebuildIsIdentity(d: NftData, freshId: string, now: nat, freshId2: string, now2: nat)
    requires Make(d, freshId, now).id != ""
    ensures Make(AsData(Make(d, freshId, now)), freshId2, now2) == Make(d, freshId, now)
  {
    Text.LowerIdempotent(d.creator);
    Text.LowerIdempotent(d.owner);
  }
}

/** The `User` model class: its constructor lower-cases the address. */
module UserModel {
  import Text

  datatype User = User(walletAddress: string, createdAt: nat, lastLogin: nat)

  /** `new User({walletAddress, createdAt, lastLogin})`. */
  function Make(walletAddress: string, createdAt: nat, lastLogin: nat): (u: User)
    ensures u.walletAddress == Text.Lower(walletAddress) && Text.IsLower(u.walletAddress)
    ensures u.createdAt == createdAt && u.lastLogin == lastLogin
  {
    Text.LowerIsLower(walletAddress);
    User(Text.Lower(walletAddress), createdAt, lastLogin)
  }

  /** Rebuilding a user from its own fields gives the same user. */
  lemma RebuildIsIdentity(walletAddress: string, createdAt: nat, lastLogin: nat)
    ensures var u := Make(walletAddress, createdAt, lastLogin);
            Make(u.walletAddress, u.createdAt, u.lastLogin) == u
  {
    Text.LowerIdempotent(walletAddress);
  }

  /** Addresses that differ only in case make equal users. */
  lemma IgnoresCase(a: string, b: string, createdAt: nat, lastLogin: nat)
    requires Text.SameIgnoringCase(a, b)
    ensures Make(a, createdAt, lastLogin) == Make(b, createdAt, lastLogin)
  {
  }
}

=== FILE: nft_context.dfy ===
/** The client-side NFT collection (`NFTProvider`): an append-only list and
    the case-insensitive query by owner. Loading from and saving to
    `localStorage` is not modelled. */
module NftContext {
  import opened Js
  import Text
  import Seqs

  /** An NFT as the client keeps it. The create page builds NFTs without a
      creator, hence the option; it may also store a `null` image URL. */
  datatype Nft = Nft(id: string, name: string, description: string, price: string,
                     imageUrl: Option<string>, owner: string, creator: Option<string>, createdAt: string)

  /** `addNFT`: append at the end. */
  function AddNft(nfts: seq<Nft>, n: Nft): (r: seq<Nft>)
    ensures |r| == |nfts| + 1 && r[..|nfts|] == nfts && r[|nfts|] == n
  {
    nfts + [n]
  }

  /** `nft.owner.toLowerCase() === address.toLowerCase()`. */
  predicate OwnedBy(n: Nft, address: string)
  {
    Text.SameIgnoringCase(n.owner, address)
  }

  /** `getUserNFTs`: exactly the NFTs owned by `address` in any casing, in
      the collection's order. */
  function GetUserNfts(nfts: seq<Nft>, address: string): (r: seq<Nft>)
    ensures Seqs.IsSubseq(r, nfts)
    ensures forall i :: 0 <= i < |r| ==> OwnedBy(r[i], address)
    ensures forall n :: n in r <==> n in nfts && OwnedBy(n, address)
    ensures forall n :: multiset(r)[n] == if OwnedBy(n, address) then multiset(nfts)[n] else 0
  {
    Seqs.Filter(nfts, n => OwnedBy(n, address))
  }

  /** The casing of the query does not matter. */
  lemma GetUserNftsIgnoresCase(nfts: seq<Nft>, a: string, b: string)
    requires Text.SameIgnoringCase(a, b)
    ensures GetUserNfts(nfts, a) == GetUserNfts(nfts, b)
  {
    Seqs.FilterSameOn(nfts, n => OwnedBy(n, a), n => OwnedBy(n, b));
  }

  /** A freshly added NFT comes last in its owner's list, after everything
      the owner already had. */
  lemma AddThenGet(nfts: seq<Nft>, n: Nft, address: string)
    requires OwnedBy(n, address)
    ensures GetUserNfts(AddNft(nfts, n), address) == GetUserNfts(nfts, address) + [n]
  {
    var p := (m: Nft) => OwnedBy(m, address);
    Seqs.FilterAppend(nfts, [n], p);
    assert Seqs.Filter([n], p) == [n];
  }

  /** Adding someone else's NFT leaves an owner's list alone. */
  lemma AddOtherOwner(nfts: seq<Nft>, n: Nft, address: string)
    requires !OwnedBy(n, address)
    ensures GetUserNfts(AddNft(nfts, n), address) == GetUserNfts(nfts, address)
  {
    var p := (m: Nft) => OwnedBy(m, address);
    Seqs.FilterAppend(nfts, [n], p);
    assert Seqs.Filter([n], p) == [];
  }
}

=== FILE: nft_routes.dfy ===
/** The server-side NFT list of the Next.js app
    (`GET /api/nft/user` and its `storeNFT` helper): a module-level array
    that only grows. */
module NftUserRoute {
  import opened Js
  import Text
  import Seqs

  /** An NFT as the create route stores it. */
  datatype StoredNft = StoredNft(id: string, name: string, description: string, price: string,
                                 imageUrl: string, creator: string, createdAt: string)

  /** `nft.creator.toLowerCase() === address.toLowerCase()`. */
  predicate CreatedBy(n: StoredNft, address: string)
  {
    Text.SameIgnoringCase(n.creator, address)
  }

  /** `storeNFT`: append at the end. */
  function StoreNft(store: seq<StoredNft>, n: StoredNft): (r: seq<StoredNft>)
    ensures |r| == |store| + 1 && r[..|store|] == store && r[|store|] == n
    ensures multiset(r) == multiset(store) + multiset{n}
  {
    store + [n]
  }

  /** The HTTP answer: status, the listed NFTs, the error text. */
  datatype Listing = Listing(status: nat, nfts: seq<StoredNft>, error: string)

  /** `GET ?address=…`: 400 when the parameter is missing or empty, otherwise
      the NFTs created by that address in any casing, in store order. */
  function Get(store: seq<StoredNft>, address: Option<string>): (r: Listing)
    ensures address.None? || address == Some("") ==> r == Listing(400, [], "Wallet address is required")
    ensures address.Some? && address.value != "" ==>
              && r.status == 200
              && Seqs.IsSubseq(r.nfts, store)
              && (forall n :: n in r.nfts <==> n in store && CreatedBy(n, address.value))
              && (forall n :: multiset(r.nfts)[n] == if CreatedBy(n, address.value) then multiset(store)[n] else 0)
  {
    match address
    case None => Listing(400, [], "Wallet address is required")
    case Some(a) =>
      if a == "" then Listing(400, [], "Wallet address is required")
      else Listing(200, Seqs.Filter(store, n => CreatedBy(n, a)), "")
  }

  /** The casing of the query does not matter. */
  lemma GetIgnoresCase(store: seq<StoredNft>, a: string, b: string)
    requires Text.SameIgnoringCase(a, b) && a != "" && b != ""
    ensures Get(store, Some(a)) == Get(store, Some(b))
  {
    Seqs.FilterSameOn(store, n => CreatedBy(n, a), n => CreatedBy(n, b));
  }

  /** A stored NFT comes last in its creator's listing. */
  lemma StoreThenGet(store: seq<StoredNft>, n: StoredNft, a: string)
    requires a != "" && CreatedBy(n, a)
    ensures Get(StoreNft(store, n), Some(a)).nfts == Get(store, Some(a)).nfts + [n]
  {
    var p := (m: StoredNft) => CreatedBy(m, a);
    Seqs.FilterAppend(store, [n], p);
    assert Seqs.Filter([n], p) == [n];
  }
}

/** NFT creation on the server (`POST /api/nft/create`): validate the form,
    derive the image's file name and URL, and store the NFT. The id
    (`uuidv4()`), the ISO time and whether writing the image succeeds are
    parameters. */
module NftCreateRoute {
  import opened Js
  import Text
  import NftUserRoute

  /** The multipart form. A text field that is absent and one that is empty
      are both "" here: the route treats them alike. */
  datatype Form = Form(image: Option<File>, name: string, description: string, price: string, creator: string)

  /** All five fields are present. */
  predicate Complete(f: Form)
  {
    f.image.Some? && f.name != "" && f.description != "" && f.price != "" && f.creator != ""
  }

  /** `image.name.split('.').pop()?.toLowerCase() || 'jpg'`. */
  function Extension(fileName: string): (ext: string)
    ensures ext != "" && '.' !in ext && Text.IsLower(ext)
    ensures Text.LastSegment(fileName) != "" ==> ext == Text.Lower(Text.LastSegment(fileName))
    ensures Text.LastSegment(fileName) == "" ==> ext == "jpg"
  {
    var last := Text.LastSegment(fileName);
    var lowered := Text.Lower(last);
    assert Text.IsLower(lowered) && '.' !in lowered by {
      Text.LowerIsLower(last);
      Text.LowerKeepsDots(last);
    }
    assert Text.IsLower("jpg") && '.' !in "jpg";
    if lowered != "" then lowered else "jpg"
  }

  /** The stored image's file name: the id, a '.', the extension. Its last
      segment gives the extension back. */
  function ImageFileName(id: string, ext: string): (r: string)
    requires '.' !in ext
    ensures Text.LastSegment(r) == ext
    ensures |r| == |id| + 1 + |ext| && r[..|id|] == id && r[|id|] == '.'
  {
    Text.LastSegmentOfJoin(id, ext);
    id + "." + ext
  }

  datatype Created = Created(store: seq<NftUserRoute.StoredNft>, status: nat,
                             nft: Option<NftUserRoute.StoredNft>, error: string)

  /** `POST`: 400 and nothing stored when a field is missing; 500 and
      nothing stored when saving the image fails; otherwise exactly one NFT
      appended, with the form's fields copied as given and the image served
      from "/nfts/". */
  function Post(store: seq<NftUserRoute.StoredNft>, form: Form, id: string, now: string, writeOk: bool): (c: Created)
    ensures !Complete(form) ==> c == Created(store, 400, None, "Missing required fields")
    ensures Complete(form) && !writeOk ==> c == Created(store, 500, None, "Failed to create NFT")
    ensures c.status == 200 <==> Complete(form) && writeOk
    ensures c.status == 200 ==>
              && c.nft.Some?
              && c.store == NftUserRoute.StoreNft(store, c.nft.value)
              && c.nft.value.id == id
              && c.nft.value.name == form.name
              && c.nft.value.description == form.description
              && c.nft.value.price == form.price
              && c.nft.value.creator == form.creator
              && c.nft.value.createdAt == now
              && c.nft.value.imageUrl == "/nfts/" + ImageFileName(id, Extension(form.image.value.name))
  {
    if !Complete(form) then Created(store, 400, None, "Missing required fields")
    else if !writeOk then Created(store, 500, None, "Failed to create NFT")
    else
      var fileName := ImageFileName(id, Extension(form.image.value.name));
      var nft := NftUserRoute.StoredNft(id, form.name, form.description, form.price,
                                        "/nfts/" + fileName, form.creator, now);
      Created(NftUserRoute.StoreNft(store, nft), 200, Some(nft), "")
  }

  /** What the creator's listing shows after a successful creation: what it
      showed before, then the new NFT, whatever the casing of the query. */
  lemma CreatedNftIsListed(store: seq<NftUserRoute.StoredNft>, form: Form, id: string, now: string, query: string)
    requires Complete(form) && query != "" && Text.SameIgnoringCase(query, form.creator)
    ensures var c := Post(store, form, id, now, true);
            NftUserRoute.Get(c.store, Some(query)).nfts == NftUserRoute.Get(store, Some(query)).nfts + [c.nft.value]
  {
    var c := Post(store, form, id, now, true);
    NftUserRoute.StoreThenGet(store, c.nft.value, query);
  }
}

=== FILE: pages.dfy ===
/** The NFT creation page (`CreateNFTPage`): the image picker and the submit
    handler, which adds the new NFT to the client collection. The new id
    (`uuidv4()`), the ISO time and the data URL the file reader produced
    are parameters. */
module CreatePage {
  import opened Js
  import NftContext

  /** The form state: text fields and the chosen image. */
  datatype Form = Form(name: string, price: string, description: string, image: Option<File>)

  const InvalidType := Toast(Failure, "Invalid file type", "Please upload an image file")

  /** The form after a file choice and the toast shown. */
  datatype Picked = Picked(form: Form, toast: Option<Toast>)

  /** `handleImageChange`: an image becomes the form's image; anything else
      leaves the form alone. */
  function HandleImageChange(form: Form, file: Option<File>): (p: Picked)
    ensures file.Some? && IsImage(file.value) ==> p == Picked(form.(image := file), None)
    ensures file.Some? && !IsImage(file.value) ==> p == Picked(form, Some(InvalidType))
    ensures file.None? ==> p == Picked(form, None)
    ensures p.form.image != form.image ==> p.form.image == file && IsImage(file.value)
  {
    match file
    case None => Picked(form, None)
    case Some(f) => if !IsImage(f) then Picked(form, Some(InvalidType)) else Picked(form.(image := file), None)
  }

  const NotConnected := Toast(Failure, "Wallet not connected", "Please connect your wallet to create an NFT")
  const ImageRequired := Toast(Failure, "Image required", "Please upload an image for your NFT")
  const CreatedToast := Toast(Success, "NFT Created!", "Your NFT has been created successfully")

  /** Everything a submit did: the collection, the `isSubmitting` flag, the
      toast, and where the router was sent. */
  datatype Submitted = Submitted(nfts: seq<NftContext.Nft>, isSubmitting: bool, toast: Toast, redirect: Option<string>)

  /** The wallet address is set and non-empty. */
  predicate Connected(address: Option<string>)
  {
    address.Some? && address.value != ""
  }

  /** `handleSubmit`: the address is checked before the image; a complete
      form adds exactly one NFT, owned by the address, and goes to
      "/my-files". */
  function HandleSubmit(nfts: seq<NftContext.Nft>, address: Option<string>, form: Form, imagePreview: Option<string>,
                        id: string, now: string, isSubmitting: bool): (s: Submitted)
    ensures !Connected(address) ==> s == Submitted(nfts, isSubmitting, NotConnected, None)
    ensures Connected(address) && form.image.None? ==> s == Submitted(nfts, isSubmitting, ImageRequired, None)
    ensures Connected(address) && form.image.Some? ==>
              && !s.isSubmitting
              && s.toast == CreatedToast
              && s.redirect == Some("/my-files")
              && |s.nfts| == |nfts| + 1
              && s.nfts[..|nfts|] == nfts
              && var n := s.nfts[|nfts|];
                 && n.owner == address.value && n.creator.None?
                 && n.name == form.name && n.description == form.description && n.price == form.price
                 && n.imageUrl == imagePreview && n.id == id && n.createdAt == now
  {
    if !Connected(address) then Submitted(nfts, isSubmitting, NotConnected, None)
    else if form.image.None? then Submitted(nfts, isSubmitting, ImageRequired, None)
    else
      var n := NftContext.Nft(id, form.name, form.description, form.price, imagePreview, address.value, None, now);
      Submitted(NftContext.AddNft(nfts, n), false, CreatedToast, Some("/my-files"))
  }

  /** The new NFT is last in its owner's list. */
  lemma SubmittedNftIsOwned(nfts: seq<NftContext.Nft>, a: string, form: Form, imagePreview: Option<string>,
                            id: string, now: string, isSubmitting: bool)
    requires a != "" && form.image.Some?
    ensures var s := HandleSubmit(nfts, Some(a), form, imagePreview, id, now, isSubmitting);
            NftContext.GetUserNfts(s.nfts, a) == NftContext.GetUserNfts(nfts, a) + [s.nfts[|nfts|]]
  {
    var s := HandleSubmit(nfts, Some(a), form, imagePreview, id, now, isSubmitting);
    NftContext.AddThenGet(nfts, s.nfts[|nfts|], a);
  }
}

/** The profile page (`ProfilePage`): the owned and created lists, the
    avatar, and the header. */
module ProfilePage {
  import opened Js
  import Seqs
  import NftContext
  import UploadAvatarRoute
  import CreatePage

  /** The page's lists and loading flag. */
  datatype Lists = Lists(owned: seq<NftContext.Nft>, created: seq<NftContext.Nft>, isLoading: bool)

  /** `nft.creator === address`: exact, case-sensitive, and false for an NFT
      without a creator. */
  predicate CreatorIs(n: NftContext.Nft, address: string)
  {
    n.creator == Some(address)
  }

  /** `loadData`: with an address, the owned list is the owner query and the
      created list the owned NFTs whose creator is exactly the address; with
      none, both lists stay as they were. Loading ends either way. */
  function LoadData(nfts: seq<NftContext.Nft>, address: Option<string>, lists: Lists): (l: Lists)
    ensures !l.isLoading
    ensures !CreatePage.Connected(address) ==> l.owned == lists.owned && l.created == lists.created
    ensures CreatePage.Connected(address) ==>
              && l.owned == NftContext.GetUserNfts(nfts, address.value)
              && Seqs.IsSubseq(l.created, l.owned)
              && (forall n :: n in l.created <==> n in l.owned && CreatorIs(n, address.value))
              && (forall n :: multiset(l.created)[n] == if CreatorIs(n, address.value) then multiset(l.owned)[n] else 0)
  {
    if !CreatePage.Connected(address) then lists.(isLoading := false)
    else
      var owned := NftContext.GetUserNfts(nfts, address.value);
      Lists(owned, Seqs.Filter(owned, n => CreatorIs(n, address.value)), false)
  }

  /** An NFT made on the create page has no creator, so it is listed as owned
      but never as created. */
  lemma SubmittedNftIsOwnedNotCreated(nfts: seq<NftContext.Nft>, a: string, form: CreatePage.Form,
                                      imagePreview: Option<string>, id: string, now: string, lists: Lists)
    requires a != "" && form.image.Some?
    ensures var s := CreatePage.HandleSubmit(nfts, Some(a), form, imagePreview, id, now, false);
            var l := LoadData(s.nfts, Some(a), lists);
            s.nfts[|nfts|] in l.owned && s.nfts[|nfts|] !in l.created
  {
    var s := CreatePage.HandleSubmit(nfts, Some(a), form, imagePreview, id, now, false);
    CreatePage.SubmittedNftIsOwned(nfts, a, form, imagePreview, id, now, false);
    assert s.nfts[|nfts|] in NftContext.GetUserNfts(s.nfts, a);
  }

  /** What the upload request returns, as the page reads it: `fetch` or
      `response.json()` threw, or a response with its `ok` flag and body. */
  datatype UploadReply = FetchFailed | Responded(ok: bool, body: JsonBody)
  datatype JsonBody = BadJson | AvatarJson(avatarUrl: Option<string>)

  const AvatarUpdated := Toast(Success, "Avatar updated", "Your profile photo has been updated successfully")
  const AvatarFailed := Toast(Failure, "Failed to update avatar", "Please try again later")

  /** The reply was ok and readable. */
  predicate Accepted(r: UploadReply)
  {
    r.Responded? && r.ok && r.body.AvatarJson?
  }

  /** `handleAvatarChange` after the upload request: the avatar becomes the
      returned URL only on an ok, readable reply. */
  function HandleAvatarChange(avatar: Option<string>, reply: UploadReply): (r: (Option<string>, Toast))
    ensures Accepted(reply) ==> r == (reply.body.avatarUrl, AvatarUpdated)
    ensures !Accepted(reply) ==> r == (avatar, AvatarFailed)
  {
    match reply
    case FetchFailed => (avatar, AvatarFailed)
    case Responded(ok, body) =>
      if !ok then (avatar, AvatarFailed)
      else match body
        case BadJson => (avatar, AvatarFailed)
        case AvatarJson(url) => (url, AvatarUpdated)
  }

  /** The upload route's answer as the page receives it. */
  function AsReply(u: UploadAvatarRoute.Uploaded): (r: UploadReply)
    ensures r.Responded? && (r.ok <==> u.status == 200)
    ensures r.ok ==> r.body == AvatarJson(u.avatarUrl)
  {
    Responded(u.status == 200, AvatarJson(u.avatarUrl))
  }

  /** The page and the route together: without an address the page sends
      "" (`address || ''`), the route refuses, and neither the avatar nor
      the user records change; with one and no failure, the avatar becomes
      the URL the route stored. */
  lemma AvatarRoundTrip(users: UploadAvatarRoute.Users, avatar: Option<string>, file: File,
                        address: Option<string>, stamp: nat, updatedAt: nat)
    ensures var sent := if CreatePage.Connected(address) then address.value else "";
            var u := UploadAvatarRoute.Post(users, Some(file), sent, stamp, updatedAt, None);
            var r := HandleAvatarChange(avatar, AsReply(u));
            && (!CreatePage.Connected(address) ==> u.users == users && r.0 == avatar && u.status == 400)
            && (CreatePage.Connected(address) ==>
                  r.0 == Some("/avatars/" + UploadAvatarRoute.AvatarFileName(address.value, stamp, file.name)))
  {
  }
}

=== FILE: provider.dfy ===
/** What the injected wallet provider (`window.ethereum`) answers to the
    requests the application makes, and the EIP-1193 / JSON-RPC error codes
    the application recognises. */
module Provider {
  import opened Js

  /** EIP-1193: the user rejected the request. */
  const UserRejected: int := 4001
  /** MetaMask: a request of this kind is already pending. */
  const RequestPending: int := -32002
  /** JSON-RPC: internal error. */
  const InternalError: int := -32603

  /** The reply to `eth_requestAccounts` / `eth_accounts`: a list of
      addresses, `null`/`undefined`, or a thrown error. */
  datatype AccountsReply = Accounts(list: seq<string>) | NoList | Threw(err: JsError)

  /** The reply names at least one account. */
  predicate HasAccount(r: AccountsReply)
  {
    r.Accounts? && |r.list| > 0
  }
}

=== FILE: seqs.dfy ===
/** `Array.prototype.filter` and the order-preserving subsequence relation it
    produces. */
module Seqs {

  /** `a` can be obtained from `b` by deleting elements, keeping the order of
      the rest. */
  predicate IsSubseq<T(==)>(a: seq<T>, b: seq<T>)
    decreases |b|
  {
    && |a| <= |b|
    && (|a| == 0 || (a[0] == b[0] && IsSubseq(a[1..], b[1..])) || IsSubseq(a, b[1..]))
  }

  /** `s.filter(p)`: the elements of `s` that satisfy `p`, in order. */
  function Filter<T(==,!new)>(s: seq<T>, p: T -> bool): (r: seq<T>)
    ensures IsSubseq(r, s)
    ensures forall i :: 0 <= i < |r| ==> p(r[i])
    ensures forall x :: x in r <==> x in s && p(x)
    ensures forall x :: multiset(r)[x] == if p(x) then multiset(s)[x] else 0
  {
    if s == [] then []
    else
      assert s == [s[0]] + s[1..];
      if p(s[0]) then [s[0]] + Filter(s[1..], p)
      else Filter(s[1..], p)
  }

  /** Filtering a concatenation filters each part. */
  lemma {:induction false} FilterAppend<T(!new)>(a: seq<T>, b: seq<T>, p: T -> bool)
    ensures Filter(a + b, p) == Filter(a, p) + Filter(b, p)
    decreases |a|
  {
    if a != [] {
      var c := a + b;
      assert c[0] == a[0] && c[1..] == a[1..] + b;
      FilterAppend(a[1..], b, p);
      if p(a[0]) {
        assert Filter(c, p) == [a[0]] + Filter(a[1..] + b, p);
        assert Filter(a, p) == [a[0]] + Filter(a[1..], p);
      } else {
        assert Filter(c, p) == Filter(a[1..] + b, p);
        assert Filter(a, p) == Filter(a[1..], p);
      }
    } else {
      assert a + b == b;
    }
  }

  /** Two conditions that agree on every element of `s` filter it alike. */
  lemma {:induction false} FilterSameOn<T(!new)>(s: seq<T>, p: T -> bool, q: T -> bool)
    requires forall i :: 0 <= i < |s| ==> p(s[i]) == q(s[i])
    ensures Filter(s, p) == Filter(s, q)
    decreases |s|
  {
    if s != [] {
      assert p(s[0]) == q(s[0]);
      FilterSameOn(s[1..], p, q);
    }
  }
}

=== FILE: text.dfy ===
/** String operations the application relies on: `toLowerCase` (on the ASCII
    letters wallet addresses are made of), the `a.slice(0, 6) + "..." +
    a.slice(-4)` address label, the text after the last '.' of a file name,
    and `Number.prototype.toString(radix)` for non-negative integers. */
module Text {

  predicate IsUpper(c: char)
  {
    'A' <= c <= 'Z'
  }

  function LowerChar(c: char): char
  {
    if IsUpper(c) then (c as int + 32) as char else c
  }

  /** `s.toLowerCase()`, restricted to ASCII letters. */
  function Lower(s: string): (r: string)
    ensures |r| == |s|
    ensures forall i :: 0 <= i < |s| ==> r[i] == LowerChar(s[i])
  {
    if s == [] then [] else [LowerChar(s[0])] + Lower(s[1..])
  }

  /** No upper-case letter occurs in `s`. */
  predicate IsLower(s: string)
  {
    forall i :: 0 <= i < |s| ==> !IsUpper(s[i])
  }

  /** Two strings that `toLowerCase` maps to the same value. */
  predicate SameIgnoringCase(a: string, b: string)
  {
    Lower(a) == Lower(b)
  }

  lemma LowerIsLower(s: string)
    ensures IsLower(Lower(s))
  {
    forall i | 0 <= i < |s|
      ensures !IsUpper(Lower(s)[i])
    {
      assert Lower(s)[i] == LowerChar(s[i]);
    }
  }

  /** Lower-casing fixes every string without upper-case letters. */
  lemma LowerOfLower(s: string)
    requires IsLower(s)
    ensures Lower(s) == s
  {
  }

  /** Lower-casing is idempotent. */
  lemma LowerIdempotent(s: string)
    ensures Lower(Lower(s)) == Lower(s)
  {
    LowerIsLower(s);
    LowerOfLower(Lower(s));
  }

  /** Lower-casing never creates or removes a '.'. */
  lemma LowerKeepsDots(s: string)
    ensures '.' in Lower(s) <==> '.' in s
  {
    if '.' in s {
      var i :| 0 <= i < |s| && s[i] == '.';
      assert Lower(s)[i] == '.';
    }
    if '.' in Lower(s) {
      var i :| 0 <= i < |s| && Lower(s)[i] == '.';
      assert s[i] == '.';
    }
  }

  /** `s.startsWith(p)`. */
  predicate StartsWith(s: string, p: string)
  {
    |p| <= |s| && s[..|p|] == p
  }

  /** `s.slice(0, n)`: the first `n` characters, or all of `s`. */
  function Head(s: string, n: nat): (r: string)
    ensures |r| == if |s| <= n then |s| else n
    ensures r == s[..|r|]
  {
    if |s| <= n then s else s[..n]
  }

  /** `s.slice(-n)` for `n > 0`: the last `n` characters, or all of `s`. */
  function Tail(s: string, n: nat): (r: string)
    ensures |r| == if |s| <= n then |s| else n
    ensures r == s[|s| - |r|..]
  {
    if |s| <= n then s else s[|s| - n..]
  }

  /** The abbreviated address shown in headers and on the wallet button:
      first six characters, "...", last four. */
  function ShortAddress(a: string): (r: string)
    ensures 10 <= |a| ==> |r| == 13 && r[..6] == a[..6] && r[6..9] == "..." && r[9..] == a[|a| - 4..]
    ensures |a| <= 4 ==> r == a + "..." + a
  {
    Head(a, 6) + "..." + Tail(a, 4)
  }

  /** The index of the last '.' in `s`, or -1 when there is none. */
  function LastDot(s: string): (k: int)
    ensures -1 <= k < |s|
    ensures 0 <= k ==> s[k] == '.'
    ensures forall i :: k < i < |s| ==> s[i] != '.'
    decreases |s|
  {
    if s == [] then -1
    else if s[|s| - 1] == '.' then |s| - 1
    else LastDot(s[..|s| - 1])
  }

  /** `s.split('.').pop()`: the text after the last '.', or all of `s` when
      it holds no '.'. */
  function LastSegment(s: string): (r: string)
    ensures |r| <= |s| && r == s[|s| - |r|..]
    ensures '.' !in r
    ensures |r| < |s| ==> s[|s| - |r| - 1] == '.'
    ensures '.' !in s ==> r == s
  {
    s[LastDot(s) + 1..]
  }

  /** The segment after a '.' that is followed by no other '.' is the last
      segment. */
  lemma LastSegmentOfJoin(p: string, e: string)
    requires '.' !in e
    ensures LastSegment(p + "." + e) == e
  {
    var s := p + "." + e;
    assert s[|p|] == '.';
    assert forall i :: |p| < i < |s| ==> s[i] == e[i - |p| - 1];
    assert LastDot(s) == |p|;
    assert s[|p| + 1..] == e;
  }

  function DigitChar(d: nat): char
    requires d < 16
  {
    if d < 10 then ('0' as int + d) as char else ('a' as int + d - 10) as char
  }

  function DigitValue(c: char): nat
  {
    if '0' <= c <= '9' then c as int - '0' as int
    else if 'a' <= c <= 'f' then c as int - 'a' as int + 10
    else 0
  }

  /** Every character of `s` is a digit of `base` as `toString` writes it:
      '0'-'9', then lower-case 'a'-'f'. */
  predicate AllDigits(s: string, base: nat)
  {
    forall i :: 0 <= i < |s| ==> DigitValue(s[i]) < base <= 16 && DigitChar(DigitValue(s[i])) == s[i]
  }

  /** `n.toString(base)`: the digits of `n`, most significant first, with no
      leading zero. */
  function Digits(n: nat, base: nat): (r: string)
    requires 2 <= base <= 16
    ensures 1 <= |r|
    ensures AllDigits(r, base)
    ensures r[0] == '0' ==> n == 0 && r == "0"
    decreases n
  {
    if n < base then [DigitChar(n)]
    else
      var q, d := n / base, n % base;
      assert 1 <= q < n && d < base by { DivModFacts(n, base); }
      var r := Digits(q, base) + [DigitChar(d)];
      assert r[0] == Digits(q, base)[0];
      r
  }

  lemma DivModFacts(n: nat, base: nat)
    requires 2 <= base <= n
    ensures 1 <= n / base < n && n % base < base
    ensures n == n / base * base + n % base
  {
  }

  /** The number a string of digits denotes (the reading that `parseInt(s,
      base)` gives a digit string). */
  function FromDigits(s: string, base: nat): nat
  {
    if s == [] then 0 else FromDigits(s[..|s| - 1], base) * base + DigitValue(s[|s| - 1])
  }

  /** Reading the digits back yields the number. */
  lemma {:induction false} DigitsRoundTrip(n: nat, base: nat)
    requires 2 <= base <= 16
    ensures FromDigits(Digits(n, base), base) == n
    decreases n
  {
    var r := Digits(n, base);
    if n < base {
      assert r[..0] == [];
    } else {
      DivModFacts(n, base);
      assert r[..|r| - 1] == Digits(n / base, base);
      DigitsRoundTrip(n / base, base);
    }
  }

  /** Distinct numbers have distinct digit strings. */
  lemma DigitsInjective(m: nat, n: nat, base: nat)
    requires 2 <= base <= 16
    requires Digits(m, base) == Digits(n, base)
    ensures m == n
  {
    DigitsRoundTrip(m, base);
    DigitsRoundTrip(n, base);
  }
}

=== FILE: user_store.dfy ===
/** The Express server's user records: the `POST /connect-wallet` upsert
    (server/routes/auth.js) and the `POST /register` insert
    (server/controllers/userController.js) over one `User` collection, whose
    schema makes `walletAddress` required and unique. The collection is a
    map from `walletAddress` to the record; the clock and the database's
    failures are parameters. */
module UserStore {
  import opened Js
  import Text

  /** A stored user. The schema declares neither `createdAt` nor
      `lastLogin` and gives them no default, so a new record has neither. */
  datatype UserDoc = UserDoc(walletAddress: string, createdAt: Option<nat>, lastLogin: Option<nat>)

  type Store = map<string, UserDoc>

  /** The unique index: each record is filed under its own address. */
  predicate WellKeyed(db: Store)
  {
    forall k :: k in db ==> db[k].walletAddress == k
  }

  /** Where the database call fails, if it does. */
  datatype Fault = Healthy | FindFails | SaveFails

  /** An HTTP answer together with the collection after the request. */
  datatype Answer = Answer(db: Store, status: nat, user: Option<UserDoc>, error: string)

  /** `POST /connect-wallet`: find the record under the lower-cased address,
      create it if there is none, otherwise stamp `lastLogin`, and save. */
  function ConnectWallet(db: Store, walletAddress: Field, now: nat, fault: Fault): (a: Answer)
    ensures WellKeyed(db) ==> WellKeyed(a.db)
    ensures a.status in {200, 400, 500}
    ensures a.status == 400 <==> !Truthy(walletAddress)
    ensures !Truthy(walletAddress) ==> a == Answer(db, 400, None, "Wallet address is required")
    ensures a.status != 200 ==> a.db == db && a.user.None?
    ensures a.status == 500 ==> a.error == "Internal server error"
    ensures a.status == 200 <==> walletAddress.Str? && walletAddress.s != "" && fault == Healthy
    ensures a.status == 200 ==>
              var key := Text.Lower(walletAddress.s);
              && a.db.Keys == db.Keys + {key}
              && (forall k :: k in db && k != key ==> a.db[k] == db[k])
              && a.user == Some(a.db[key])
              && (WellKeyed(db) ==> a.db[key].walletAddress == key)
              && a.db[key].lastLogin == (if key in db then Some(now) else None)
              && a.db[key].createdAt == (if key in db then db[key].createdAt else None)
  {
    match walletAddress
    case Absent => Answer(db, 400, None, "Wallet address is required")
    case NonString(truthy) =>
      // a truthy non-string has no toLowerCase: the TypeError lands in the catch
      if truthy then Answer(db, 500, None, "Internal server error")
      else Answer(db, 400, None, "Wallet address is required")
    case Str(s) =>
      if s == "" then Answer(db, 400, None, "Wallet address is required")
      else if fault == FindFails then Answer(db, 500, None, "Internal server error")
      else
        var key := Text.Lower(s);
        var user := if key in db then db[key].(lastLogin := Some(now)) else UserDoc(key, None, None);
        if fault != Healthy then Answer(db, 500, None, "Internal server error")
        else Answer(db[key := user], 200, Some(user), "")
  }

  /** `POST /register`: save a new record with the address exactly as sent.
      The schema rejects a missing or empty address and a duplicate one. */
  function Register(db: Store, walletAddress: Option<string>, fault: Fault): (a: Answer)
    ensures WellKeyed(db) ==> WellKeyed(a.db)
    ensures a.status == 201 || a.status == 500
    ensures a.status == 201 <==>
              walletAddress.Some? && walletAddress.value != "" && walletAddress.value !in db && fault == Healthy
    ensures a.status == 201 ==>
              var key := walletAddress.value;
              a.db == db[key := UserDoc(key, None, None)] && a.user == Some(a.db[key])
    ensures a.status == 500 ==> a.db == db && a.user.None? && a.error == "Error registering user"
  {
    match walletAddress
    case None => Answer(db, 500, None, "Error registering user")
    case Some(s) =>
      if s == "" || s in db || fault != Healthy then Answer(db, 500, None, "Error registering user")
      else
        var user := UserDoc(s, None, None);
        Answer(db[s := user], 201, Some(user), "")
  }

  /** Logging in again under any casing of an address reuses the record the
      first login created: no new key appears, `createdAt` is left alone and
      only `lastLogin` moves. */
  lemma ReloginReusesRecord(db: Store, a: string, b: string, t1: nat, t2: nat)
    requires a != "" && b != "" && Text.SameIgnoringCase(a, b)
    ensures var first := ConnectWallet(db, Str(a), t1, Healthy);
            var second := ConnectWallet(first.db, Str(b), t2, Healthy);
            var key := Text.Lower(a);
            && second.db.Keys == first.db.Keys
            && second.db[key].createdAt == first.db[key].createdAt
            && second.db[key].walletAddress == first.db[key].walletAddress
            && second.db[key].lastLogin == Some(t2)
            && second.db[key := first.db[key]] == first.db
  {
  }

  /** The upsert does not see the casing of the address it is given. */
  lemma ConnectIgnoresCase(db: Store, a: string, b: string, now: nat, fault: Fault)
    requires Text.SameIgnoringCase(a, b) && a != "" && b != ""
    ensures ConnectWallet(db, Str(a), now, fault) == ConnectWallet(db, Str(b), now, fault)
  {
  }

  /** A record is only ever created under a lower-case key, so a collection
      filled by the upsert alone has only lower-case keys. */
  lemma ConnectStoresLowerCase(db: Store, w: Field, now: nat, fault: Fault)
    requires forall k :: k in db ==> Text.IsLower(k)
    ensures var a := ConnectWallet(db, w, now, fault);
            forall k :: k in a.db ==> Text.IsLower(k)
  {
    if w.Str? {
      Text.LowerIsLower(w.s);
    }
  }

  /** Unlike the upsert, registration files two casings of one address as
      two records: registering `a` and then `b`, which differ only in case,
      succeeds twice and leaves both keys in the collection. */
  lemma RegisterSplitsCasings(db: Store, a: string, b: string)
    requires a != b && Text.Lower(a) == Text.Lower(b)
    requires a != "" && b != "" && a !in db && b !in db
    ensures var first := Register(db, Some(a), Healthy);
            var second := Register(first.db, Some(b), Healthy);
            && first.status == 201 && second.status == 201
            && second.db.Keys == db.Keys + {a, b}
            && second.db[a] != second.db[b]
  {
  }

  /** The two-casing case is not vacuous: "0xAB" and "0xab" are such a pair. */
  lemma CasingsExist()
    ensures "0xAB" != "0xab" && Text.Lower("0xAB") == Text.Lower("0xab")
  {
    assert "0xAB"[2] != "0xab"[2];
    assert Text.Lower("0xAB") == "0xab";
    assert Text.Lower("0xab") == "0xab";
  }

  /** Whereas the upsert files them as one: connecting `a` and then `b`,
      which differ only in case, succeeds twice and adds the single key
      `Text.Lower(a)` to the collection. */
  lemma ConnectMergesCasings(db: Store, a: string, b: string, t1: nat, t2: nat)
    requires Text.Lower(a) == Text.Lower(b) && a != "" && b != ""
    ensures var first := ConnectWallet(db, Str(a), t1, Healthy);
            var second := ConnectWallet(first.db, Str(b), t2, Healthy);
            && first.status == 200 && second.status == 200
            && second.db.Keys == db.Keys + {Text.Lower(a)}
  {
  }
}

=== FILE: wallet_connect.dfy ===
/** The wallet button (`WalletConnect`): whether a connection attempt is in
    flight, and the user record the backend returned. A connection attempt
    is split at its only point of interest for re-entry: `BeginConnect` runs
    up to `setIsConnecting(true)`, `SettleConnect` runs the provider request,
    the backend call and the `finally`. */
module WalletConnect {
  import opened Js
  import opened Provider
  import Text

  datatype User = User(walletAddress: string, createdAt: string, lastLogin: string)

  datatype Button = Button(isConnecting: bool, user: Option<User>)

  /** The state the component mounts with. */
  const Idle: Button := Button(false, None)

  /** The answer of `POST /api/auth/connect-wallet`: either `fetch` or
      `response.json()` threw, or a response arrived with its `ok` flag, its
      `error` text ("" when absent) and its `user`. */
  datatype BackendReply = Unreachable(err: JsError) | Replied(ok: bool, error: string, user: Option<User>)

  const NotFound := Toast(Failure, "MetaMask not found", "Please install MetaMask browser extension to connect.")
  const Connected := Toast(Success, "Wallet Connected", "Your wallet has been successfully connected!")
  const ConnectDefault := "Failed to connect wallet"
  const NoAccounts := "No accounts found"

  /** The error toast shown for a failed attempt. Errors with a code are
      sorted by it; errors without one show their own message when they are
      `Error`s. */
  function Classify(e: JsError): (t: Toast)
    ensures t.kind == Failure
    ensures CodeTruthy(e) && e.code.value == UserRejected ==>
              t == Toast(Failure, "Connection Rejected", "You rejected the connection request")
    ensures CodeTruthy(e) && e.code.value == RequestPending ==>
              t == Toast(Failure, "Connection Pending", "Please check MetaMask to complete the connection")
    ensures CodeTruthy(e) && e.code.value == InternalError ==>
              t == Toast(Failure, "Connection Error", "Internal MetaMask error. Please try again")
    ensures CodeTruthy(e) && e.code.value !in {UserRejected, RequestPending, InternalError} ==>
              t == Toast(Failure, "Connection Failed", OrElse(e.message, ConnectDefault))
    ensures !CodeTruthy(e) ==>
              t == Toast(Failure, "Connection Failed", if e.isError then e.message else ConnectDefault)
  {
    if CodeTruthy(e) then
      if e.code.value == UserRejected then
        Toast(Failure, "Connection Rejected", "You rejected the connection request")
      else if e.code.value == RequestPending then
        Toast(Failure, "Connection Pending", "Please check MetaMask to complete the connection")
      else if e.code.value == InternalError then
        Toast(Failure, "Connection Error", "Internal MetaMask error. Please try again")
      else Toast(Failure, "Connection Failed", OrElse(e.message, ConnectDefault))
    else Toast(Failure, "Connection Failed", if e.isError then e.message else ConnectDefault)
  }

  /** The part of `connectWallet` before the provider request. */
  datatype Begun = Begun(button: Button, toast: Option<Toast>, proceed: bool)

  /** The missing provider is reported first; then an attempt already in
      flight makes the call a no-op; otherwise the attempt starts. */
  function BeginConnect(b: Button, hasProvider: bool): (g: Begun)
    ensures g.proceed <==> hasProvider && !b.isConnecting
    ensures g.proceed ==> g.button == b.(isConnecting := true) && g.toast.None?
    ensures !g.proceed ==> g.button == b
    ensures !hasProvider ==> g.toast == Some(NotFound)
    ensures hasProvider && b.isConnecting ==> g.toast.None?
  {
    if !hasProvider then Begun(b, Some(NotFound), false)
    else if b.isConnecting then Begun(b, None, false)
    else Begun(b.(isConnecting := true), None, true)
  }

  /** Everything a call of `connectWallet` did: the new state, the toast it
      showed, whether it asked the provider for accounts, and the address it
      posted to the backend. */
  datatype Outcome = Outcome(button: Button, toast: Option<Toast>, requested: bool, posted: Option<string>)

  /** The backend accepted the first account. */
  predicate Succeeds(reply: AccountsReply, backend: BackendReply)
  {
    HasAccount(reply) && backend.Replied? && backend.ok
  }

  /** The provider request, the backend call and the `finally`, for an
      attempt that `BeginConnect` let through. */
  function SettleConnect(b: Button, reply: AccountsReply, backend: BackendReply): (o: Outcome)
    ensures o.requested && !o.button.isConnecting && o.toast.Some?
    ensures o.posted.Some? <==> HasAccount(reply)
    ensures o.posted.Some? ==> o.posted.value == reply.list[0]
    ensures Succeeds(reply, backend) ==> o.button.user == backend.user && o.toast == Some(Connected)
    ensures !Succeeds(reply, backend) ==> o.button.user == b.user && o.toast.value.kind == Failure
    ensures reply == NoList || reply == Accounts([]) ==> o.toast == Some(Classify(Plain(NoAccounts)))
    ensures reply.Threw? ==> o.toast == Some(Classify(reply.err))
    ensures HasAccount(reply) && backend.Unreachable? ==> o.toast == Some(Classify(backend.err))
    ensures HasAccount(reply) && backend.Replied? && !backend.ok ==>
              o.toast == Some(Toast(Failure, "Connection Failed", OrElse(backend.error, ConnectDefault)))
  {
    var done := b.(isConnecting := false);
    match reply
    case Threw(e) => Outcome(done, Some(Classify(e)), true, None)
    case NoList => Outcome(done, Some(Classify(Plain(NoAccounts))), true, None)
    case Accounts(list) =>
      if |list| == 0 then Outcome(done, Some(Classify(Plain(NoAccounts))), true, None)
      else
        var posted := Some(list[0]);
        match backend
        case Unreachable(e) => Outcome(done, Some(Classify(e)), true, posted)
        case Replied(ok, error, user) =>
          if !ok then Outcome(done, Some(Classify(Plain(OrElse(error, ConnectDefault)))), true, posted)
          else Outcome(done.(user := user), Some(Connected), true, posted)
  }

  /** `connectWallet` as one call. */
  function ConnectWallet(b: Button, hasProvider: bool, reply: AccountsReply, backend: BackendReply): (o: Outcome)
    ensures o.requested <==> hasProvider && !b.isConnecting
    ensures !o.requested ==> o.button == b && o.posted.None?
    ensures !hasProvider ==> o.toast == Some(NotFound)
    ensures hasProvider && b.isConnecting ==> o.toast.None?
    ensures o.requested ==> !o.button.isConnecting
    ensures o.requested && Succeeds(reply, backend) ==> o.button.user == backend.user
    ensures !(o.requested && Succeeds(reply, backend)) ==> o.button.user == b.user
  {
    var g := BeginConnect(b, hasProvider);
    if g.proceed then SettleConnect(g.button, reply, backend)
    else Outcome(g.button, g.toast, false, None)
  }

  /** `handleAccountsChanged`: an empty list forgets the user; any other list
      reconnects. */
  function AccountsChanged(b: Button, accounts: seq<string>, hasProvider: bool, reply: AccountsReply, backend: BackendReply): (o: Outcome)
    ensures |accounts| == 0 ==> o.button == b.(user := None) && !o.requested && o.posted.None?
    ensures |accounts| == 0 ==> o.toast == Some(Toast(Info, "Wallet Disconnected", "Your wallet has been disconnected"))
    ensures |accounts| > 0 ==> o == ConnectWallet(b, hasProvider, reply, backend)
  {
    if |accounts| == 0 then
      Outcome(b.(user := None), Some(Toast(Info, "Wallet Disconnected", "Your wallet has been disconnected")), false, None)
    else ConnectWallet(b, hasProvider, reply, backend)
  }

  /** The click on the connected button: forget the user. */
  function Disconnect(b: Button): (o: Outcome)
    ensures o.button.user.None? && o.button.isConnecting == b.isConnecting
    ensures !o.requested && o.posted.None?
    ensures o.toast == Some(Toast(Success, "Wallet Disconnected", "Your wallet has been disconnected successfully"))
  {
    Outcome(b.(user := None), Some(Toast(Success, "Wallet Disconnected", "Your wallet has been disconnected successfully")), false, None)
  }

  /** The button's caption: the abbreviated address of the user, or the
      connect prompt. */
  function Caption(b: Button): (r: string)
    ensures b.user.Some? ==> r == Text.ShortAddress(b.user.value.walletAddress)
    ensures b.user.None? && b.isConnecting ==> r == "Connecting..."
    ensures b.user.None? && !b.isConnecting ==> r == "Connect Wallet"
  {
    match b.user
    case Some(u) => Text.ShortAddress(u.walletAddress)
    case None => if b.isConnecting then "Connecting..." else "Connect Wallet"
  }

  /** After a disconnect click the button offers to connect again, unless an
      attempt is still in flight; a later successful attempt brings a user
      back. */
  lemma DisconnectThenCaption(b: Button, reply: AccountsReply, backend: BackendReply)
    ensures !b.isConnecting ==> Caption(Disconnect(b).button) == "Connect Wallet"
    ensures b.isConnecting ==> Caption(Disconnect(b).button) == "Connecting..."
    ensures !b.isConnecting && Succeeds(reply, backend) ==> ConnectWallet(Disconnect(b).button, true, reply, backend).button.user == backend.user
  {
  }

  /** While an attempt is in flight a second call, from a click or from an
      account change, asks the provider nothing and changes nothing; once it
      settles, the flag is down again whatever the answers were. */
  lemma InFlightAttemptIsExclusive(b: Button, reply: AccountsReply, backend: BackendReply,
                                   reply2: AccountsReply, backend2: BackendReply)
    requires !b.isConnecting
    ensures var g := BeginConnect(b, true);
            && g.proceed
            && ConnectWallet(g.button, true, reply2, backend2) == Outcome(g.button, None, false, None)
            && !SettleConnect(g.button, reply, backend).button.isConnecting
  {
  }

  /** An empty account list never reaches the backend. */
  lemma NoAccountsNoBackend(b: Button, backend: BackendReply)
    requires !b.isConnecting
    ensures var o := ConnectWallet(b, true, Accounts([]), backend);
            o.requested && o.posted.None? && o.button.user == b.user
            && o.toast == Some(Toast(Failure, "Connection Failed", NoAccounts))
  {
  }
}

=== FILE: wallet_context.dfy ===
/** The application-wide wallet session (`WalletProvider`): the connected
    address, whether it is connected, and the last error message. Every
    handler is one atomic step; the provider's and the backend's answers are
    parameters. */
module WalletContext {
  import opened Js
  import opened Provider
  import UserStore

  datatype Wallet = Wallet(address: Option<string>, isConnected: bool, error: Option<string>)

  /** The state before any handler has run. */
  const Initial: Wallet := Wallet(None, false, None)

  /** The session flag agrees with the address. */
  predicate Consistent(w: Wallet)
  {
    w.isConnected <==> w.address.Some?
  }

  /** What `window.ethereum` is: undefined, or defined and MetaMask or not. */
  datatype Injected = Undefined | Defined(isMetaMask: bool)

  /** The state after a handler, and the address it posted to
      `/auth/register`, if it posted one. */
  datatype Step = Step(wallet: Wallet, posted: Option<string>)

  const NotInstalled := "MetaMask is not installed. Please install MetaMask to use this application."
  const NotMetaMask := "Please use MetaMask to connect your wallet."
  const NoAccounts := "No accounts found in MetaMask. Please create or import an account."
  const RegisterFailed := "Failed to register user with backend"
  const Denied := "User denied account access"
  const Busy := "MetaMask is already processing a request. Please check your MetaMask extension."
  const Internal := "Internal MetaMask error. Please try again."
  const ConnectDefault := "Failed to connect to MetaMask"
  const NotInstalledOnLoad := "MetaMask is not installed"
  const CheckFailed := "Failed to check MetaMask connection"

  /** The message a provider error thrown during `connectWallet` is shown
      as: the three known codes have fixed texts, anything else its own
      message, or a default when it has none. */
  function ConnectError(e: JsError): (m: string)
    ensures m != ""
    ensures e.code == Some(UserRejected) ==> m == Denied
    ensures e.code == Some(RequestPending) ==> m == Busy
    ensures e.code == Some(InternalError) ==> m == Internal
    ensures e.code !in {Some(UserRejected), Some(RequestPending), Some(InternalError)} ==>
              (e.message != "" ==> m == e.message) && (e.message == "" ==> m == ConnectDefault)
  {
    if e.code == Some(UserRejected) then Denied
    else if e.code == Some(RequestPending) then Busy
    else if e.code == Some(InternalError) then Internal
    else OrElse(e.message, ConnectDefault)
  }

  /** `setAddress(a); setIsConnected(true); setError(null)` followed by
      `registerUser(a)`, which records an error when the backend call
      fails. */
  function Attach(a: string, backendOk: bool): (s: Step)
    ensures s.wallet.address == Some(a) && s.wallet.isConnected && s.posted == Some(a)
    ensures s.wallet.error.None? <==> backendOk
  {
    Step(Wallet(Some(a), true, if backendOk then None else Some(RegisterFailed)), Some(a))
  }

  /** `connectWallet`: ask the provider for accounts and connect to the first
      one. Every failure records a message and leaves the session as it was. */
  function ConnectWallet(w: Wallet, p: Injected, reply: AccountsReply, backendOk: bool): (s: Step)
    ensures Consistent(w) ==> Consistent(s.wallet)
    ensures s.posted.Some? <==> p == Defined(true) && HasAccount(reply)
    ensures s.posted.Some? ==> s.posted == Some(reply.list[0]) && s.wallet == Attach(reply.list[0], backendOk).wallet
    ensures s.posted.None? ==> s.wallet.address == w.address && s.wallet.isConnected == w.isConnected && s.wallet.error.Some?
    ensures p == Undefined ==> s.wallet.error == Some(NotInstalled)
    ensures p == Defined(false) ==> s.wallet.error == Some(NotMetaMask)
    ensures p == Defined(true) && (reply == NoList || reply == Accounts([])) ==> s.wallet.error == Some(NoAccounts)
    ensures p == Defined(true) && reply.Threw? ==> s.wallet.error == Some(ConnectError(reply.err))
  {
    match p
    case Undefined => Step(w.(error := Some(NotInstalled)), None)
    case Defined(isMetaMask) =>
      if !isMetaMask then Step(w.(error := Some(NotMetaMask)), None)
      else match reply
        case Threw(e) => Step(w.(error := Some(ConnectError(e))), None)
        case NoList => Step(w.(error := Some(NoAccounts)), None)
        case Accounts(list) =>
          if |list| == 0 then Step(w.(error := Some(NoAccounts)), None)
          else Attach(list[0], backendOk)
  }

  /** `disconnectWallet`: back to the initial state from anywhere, with no
      backend call. */
  function DisconnectWallet(w: Wallet): (s: Step)
    ensures s.wallet == Initial && s.posted.None?
  {
    Step(Wallet(None, false, None), None)
  }

  /** `checkConnection`, run on page load with the `eth_accounts` reply: an
      already-authorised account connects as `connectWallet` would; no
      account changes nothing. It does not ask whether the provider is
      MetaMask. */
  function CheckConnection(w: Wallet, p: Injected, reply: AccountsReply, backendOk: bool): (s: Step)
    ensures Consistent(w) ==> Consistent(s.wallet)
    ensures p.Defined? && HasAccount(reply) ==> s == ConnectWallet(w, Defined(true), reply, backendOk)
    ensures p.Defined? && (reply == NoList || reply == Accounts([])) ==> s == Step(w, None)
    ensures p == Undefined ==> s == Step(w.(error := Some(NotInstalledOnLoad)), None)
    ensures p.Defined? && reply.Threw? ==> s == Step(w.(error := Some(CheckFailed)), None)
  {
    match p
    case Undefined => Step(w.(error := Some(NotInstalledOnLoad)), None)
    case Defined(_) =>
      match reply
      case Threw(_) => Step(w.(error := Some(CheckFailed)), None)
      case NoList => Step(w, None)
      case Accounts(list) => if |list| > 0 then Attach(list[0], backendOk) else Step(w, None)
  }

  /** `handleAccountsChanged`: an empty or missing list disconnects; a
      non-empty one connects to its first entry exactly as a successful
      `connectWallet` would. */
  function AccountsChanged(w: Wallet, accounts: Option<seq<string>>, backendOk: bool): (s: Step)
    ensures accounts == None || accounts == Some([]) ==> s == DisconnectWallet(w)
    ensures accounts.Some? && |accounts.value| > 0 ==>
              s == ConnectWallet(w, Defined(true), Accounts(accounts.value), backendOk)
  {
    match accounts
    case None => DisconnectWallet(w)
    case Some(list) => if |list| == 0 then DisconnectWallet(w) else Attach(list[0], backendOk)
  }

  /** The events the session reacts to, each with the answers it receives. */
  datatype Event =
    | Connect(p: Injected, reply: AccountsReply, backendOk: bool)
    | Disconnect
    | Check(p: Injected, reply: AccountsReply, backendOk: bool)
    | Changed(accounts: Option<seq<string>>, backendOk: bool)

  function Next(w: Wallet, e: Event): Step
  {
    match e
    case Connect(p, reply, ok) => ConnectWallet(w, p, reply, ok)
    case Disconnect => DisconnectWallet(w)
    case Check(p, reply, ok) => CheckConnection(w, p, reply, ok)
    case Changed(accounts, ok) => AccountsChanged(w, accounts, ok)
  }

  /** The session after a sequence of events, oldest first. */
  function Run(w: Wallet, events: seq<Event>): Wallet
    decreases |events|
  {
    if events == [] then w else Run(Next(w, events[0]).wallet, events[1..])
  }

  /** Whatever events arrive, `isConnected` is true exactly when there is an
      address. */
  lemma {:induction false} RunKeepsConsistent(w: Wallet, events: seq<Event>)
    requires Consistent(w)
    ensures Consistent(Run(w, events))
    decreases |events|
  {
    if events != [] {
      var e := events[0];
      var s := Next(w, e);
      assert Consistent(s.wallet) by {
        match e
        case Connect(p, reply, ok) =>
        case Disconnect =>
        case Check(p, reply, ok) =>
        case Changed(accounts, ok) =>
          if accounts.Some? && |accounts.value| > 0 {
            assert s == Attach(accounts.value[0], ok);
          }
      }
      RunKeepsConsistent(s.wallet, events[1..]);
    }
  }

  /** From the initial state the session is always consistent. */
  lemma SessionAlwaysConsistent(events: seq<Event>)
    ensures Consistent(Run(Initial, events))
  {
    RunKeepsConsistent(Initial, events);
  }

  /** A failed backend registration does not undo the connection: the
      wallet stays connected to the first account, with the registration
      error recorded. */
  lemma RegistrationFailureKeepsConnection(w: Wallet, a: string, rest: seq<string>)
    ensures ConnectWallet(w, Defined(true), Accounts([a] + rest), false).wallet == Wallet(Some(a), true, Some(RegisterFailed))
  {
  }

  /** `connectWallet` followed by the backend's `POST /register` of the
      connected address: the session ends without an error exactly when the
      registration inserts a new record. So every later connection of an
      address the collection already holds records the registration error. */
  lemma ConnectThenRegister(w: Wallet, a: string, rest: seq<string>, db: UserStore.Store, fault: UserStore.Fault)
    ensures var reg := UserStore.Register(db, Some(a), fault);
            var s := ConnectWallet(w, Defined(true), Accounts([a] + rest), reg.status == 201);
            && s.wallet.address == Some(a) && s.wallet.isConnected
            && (s.wallet.error.None? <==> a != "" && a !in db && fault == UserStore.Healthy)
            && (a in db ==> s.wallet.error == Some(RegisterFailed))
  {
  }
}
